=== FILE: README.md ===
# gpxtools track identity, in Dafny

A model of the part of `gpxtools.py` that decides which GPS tracks end up in
which file. There are three parts:

- **Splitting by date.**
  - `split` collects the dates of a document's tracks.
  - For each date it writes a copy holding only the tracks of that date.
  - Tracks with the same name are deduplicated by point count: strictly more points replaces, otherwise the later track is dropped.
- **Allocating file names.** `make_filename` finds the first free `<date>-NNN.gpx`.
- **Merging.** `merge` folds the tracks of one file into another.
  - It indexes file1's tracks by name.
  - It appends file2 tracks of new names.
  - It replaces indexed tracks that file2 beats on point count.
  - When run non-interactively, it rewrites file1 if anything changed and always removes file2.

A parsed GPX document is the sequence of its root's children (`Gpx.Doc`).
Each child is either a track or some other element:

- a track is summarised by its name, its first timestamp (as the date written in it, and as an instant) and its point count;
- any other element is `Other`.

The file system is a map from path to parsed document (`Gpx.FileSystem`). A
path that is absent stands for a file that does not exist or does not parse.

Every operation comes in two forms, connected by lemmas proved for all inputs:

- **Split.** `Split.Scan` is the pass as the source performs it, with an index and removals. `Split.BestTracks` is a declarative reference, "the earliest track of each name with the most points".
- **Merge.**
  - `Merge.MergeDocs` is the merge as performed. It tracks element identities, so lxml's `remove` can fail.
  - `Merge.MergeSpec` is a reference definition: file1's children that no file2 track outdoes, in place, followed by the file2 tracks that beat file1, in order.
- **make_filename.** `Filenames.MakeFilename` is a loop with invariants. The names it probes are injective in date and sequence number.
- **The whole split run.** `SplitRun.SplitFile` loops over the dates over the file system, and its contract is stated against the reference definitions.

The merge has two paths that raise in the source, and both are modelled as
`Merge.MergeError` values:

- **`UndefinedTracks`.** When file1 repeats a track name, the fallback branch reads `tracks`, a name that does not exist in `merge`.
- **`NotAChild`.** The index entry written for a file2 track refers to file2's own element, not to the copy appended to file1. So when a later file2 track of that name has still more points, `root1.remove` is given an element that is not a child. This is the only way visiting file2 fails: with file1 free of repeated names, the merge fails exactly when some file2 record (a track with more points than file1's track of its name and every earlier file2 track of its name) is followed by a track of its name with still more points.

The model follows what the code does in three places where a reader might
expect something else:

- **Repeated names in file1.** The comment above `merge` (lines 162-163) says that on duplicate names the track with the most points is kept. For a name that file1 itself repeats, the code instead reads `tracks`, a name `merge` never defines (line 192), and so raises.
- **The index after a replacement.** After appending a deep copy of a file2 track, the code indexes file2's own element, not the copy (lines 203 and 211). A later removal of that entry (line 209) is therefore given an element that is not a child of file1's root.
- **Timezones.** The dates are collected without the timezone (line 33) but each track is compared with the timezone applied (line 132). So with a timezone a track whose local date is not among the collected dates is in no output; `SplitProperties.ZonedTrackDroppedExample` shows one.

Files:

- `gpx.dfy`: the data model.
- `split.dfy`: one date pass and its properties.
- `filenames.dfy`: `make_filename` and name formatting.
- `merge.dfy`: the merge and its reference definition.
- `merge_proofs.dfy`: the merge agrees with the reference.
- `merge_failures.dfy`: exactly when the merge fails.
- `merge_laws.dfy`: laws of the reference merge and of the merge on the file system.
- `split_run.dfy`: `split` over the file system.

## Model

| member | source | states |
|---|---|---|
| Gpx.Dates | gpxtools.py:30-34 | The collected dates are exactly the (unlocalised) dates of the document's tracks, in both directions |
| Split.BestPositions | gpxtools.py:137-151 | The reference survivors below `n` are increasing, below `n`, and are exactly the positions that are the earliest track of their name with the most points among tracks of date `d` |
| Split.Without | gpxtools.py:147 | Removing a kept element leaves exactly the other positions, no more of them, and still in order |
| Split.Step | gpxtools.py:124-151 | No contract of its own: one child of the date pass (non-track removed, other date removed, a name's first track kept and indexed, a later one with more points replacing the indexed one, any other removed); Split.StepKeepsInv states what it preserves |
| Split.Scan | gpxtools.py:124-151 | No contract of its own: the date pass over the first `n` children; Split.ScanInv and Split.ScanKeepsBest state what it computes |
| Split.StepKeepsInv | gpxtools.py:124-151 | One child of the pass keeps the pass invariant: kept positions in order and exactly the survivors, the index mapping each name seen to its survivor |
| Split.ScanInv | gpxtools.py:124-151 | After each child, the kept positions are in order and are exactly the survivors so far, and the index maps every name seen so far to its survivor and that survivor's point count |
| Split.ScanKeepsBest | gpxtools.py:124-151 | The positions the pass keeps are exactly the reference survivors |
| Split.SplitDay | gpxtools.py:119-151 | The document written for date `d` is the reference's: the survivors in document order |
| SplitProperties.SplitDayIsSubsequence | gpxtools.py:124-151 | Only removals happen, so the output is a subsequence of the input |
| SplitProperties.SplitDayOnlyTracksOfDate | gpxtools.py:124-136 | Every child left for `d` is a track whose (localised) date is `d`; no other element survives |
| SplitProperties.SplitDayDistinctNames | gpxtools.py:137-151 | No two tracks left for `d` share a name |
| SplitProperties.SplitDayKeepsBestOfEachName | gpxtools.py:137-151 | Every name with a track dated `d` keeps one: the earliest track of that name with the most points |
| SplitProperties.UnzonedPassesCoverEachTrackOnce | gpxtools.py:30-34 | Without a timezone every track's date is collected, and exactly the pass for that date considers the track |
| SplitProperties.ZonedTrackOutsideDatesIsDropped | gpxtools.py:132-136 | With a timezone, a track whose local date is not among the collected dates is removed by every pass |
| SplitProperties.ZonedTrackDroppedExample | gpxtools.py:132-136 | A track at 22:00 UTC on 1 June, in a zone three hours ahead: 1 June is the only date collected, and its pass writes no track |
| SplitProperties.MorningRideExample | gpxtools.py:137-148 | Two "Morning Ride" tracks of a day with 120 and 300 points: the day's file holds only the one with 300 |
| Filenames.ZeroPad | gpxtools.py:92 | `%03d` gives at least three characters, all digits |
| Filenames.Decimal | gpxtools.py:92 | `%d` gives at least one character, all digits; Filenames.ValueOfDecimal states that they denote the number |
| Filenames.ValueOfDecimal | gpxtools.py:92 | The digits of `%d` read back as the number |
| Filenames.IsoFormat | gpxtools.py:92 | No contract of its own: `date.isoformat()` as zero-padded year, month and day joined by dashes; Filenames.FileNameInjective states that it and the sequence number determine the name |
| Filenames.FileName | gpxtools.py:92 | No contract of its own: `"%s-%03d.gpx"`; Filenames.FileNameInjective states that distinct dates or sequence numbers give distinct names |
| Filenames.FileNameInjective | gpxtools.py:92 | Two candidate file names are equal only for the same date and sequence number |
| Filenames.Join | gpxtools.py:93 | The joined path is at least as long as the name; Filenames.JoinInjective states that in one directory distinct relative names give distinct paths |
| Filenames.JoinInjective | gpxtools.py:93 | In one directory, joining distinct relative names (not starting with `/`) gives distinct paths |
| Filenames.SeqName | gpxtools.py:92-93 | No contract of its own: the candidate path for a date and sequence number; Filenames.SeqNameInjective states that it is injective |
| Filenames.ValueOfZeroPad | gpxtools.py:92 | Reading a zero-padded number back gives the number |
| Filenames.SeqNameInjective | gpxtools.py:92-93 | Two candidate names in one directory are equal only for the same date and sequence number |
| Filenames.TakenCandidateIsNear | gpxtools.py:95-99 | A taken candidate has fewer digits than the longest existing name, so the probing loop ends |
| Filenames.MakeFilename | gpxtools.py:88-100 | Returns the candidate with the least free sequence number (all smaller ones exist); `base_file` is the sequence-0 name; `do_merge` holds iff the sequence-0 name exists, iff the number is positive |
| MergeCorrectness.IndexFile1Describes | gpxtools.py:184-189 | Without repeated names, file1's index maps exactly its track names, each to its own element and point count |
| MergeCorrectness.IndexFile1FailsOnRepeat | gpxtools.py:188-192 | A name repeated in file1 makes indexing fail on the undefined `tracks` |
| MergeCorrectness.IndexFile1OnlyUndefined | gpxtools.py:184-195 | Indexing file1 can fail in no other way |
| Merge.IndexFile1 | gpxtools.py:184-195 | No contract of its own: the loop indexing file1's tracks, or the failure on the undefined `tracks`; the three MergeCorrectness.IndexFile1 lemmas above state what it computes |
| Merge.RemoveNode | gpxtools.py:209 | No contract of its own: `root1.remove`, failing when no child has the reference; MergeFailures.RemoveAbsent and MergeCorrectness.ReplaceRemoves state when it fails and what it leaves |
| Merge.MergeStep | gpxtools.py:197-212 | No contract of its own: one file2 child (appended under a new name, replacing on more points, otherwise skipped); MergeCorrectness.StepDescribes states that it keeps the scan invariant |
| MergeCorrectness.StepDescribes | gpxtools.py:197-212 | Without repeated names in either file, visiting one file2 child succeeds and keeps the scan invariant of MergeCorrectness.MergeScanDescribes |
| MergeCorrectness.ReplaceRemoves | gpxtools.py:205-210 | A file2 track that is the first of its name and beats file1's track of that name: removing that track from file1's children succeeds and leaves the children kept after it |
| Merge.MergeDocs | gpxtools.py:184-212 | No contract of its own: index file1, then visit file2's children; MergeCorrectness.MergeMatchesSpec states its result, and MergeFailures.UndefinedIffFile1Repeats and MergeFailures.NotAChildIffRecordBroken state exactly when it fails, and how |
| MergeCorrectness.MergeScanDescribes | gpxtools.py:197-212 | Without repeated names, after each file2 child: file1 holds its unoutdone children in place followed by the copies of the file2 tracks that beat file1 so far; `modified` says whether there is such a track; the index is file1's except for the names file2 has shown |
| MergeCorrectness.StepNewName | gpxtools.py:200-204 | A file2 track of a new name is appended and marks the merge modified |
| MergeCorrectness.StepReplace | gpxtools.py:205-212 | A file2 track with more points than file1's track of its name removes that track and is appended |
| MergeCorrectness.StepSkip | gpxtools.py:205-207 | A file2 track with no more points than the indexed one changes nothing |
| MergeCorrectness.MergeMatchesSpec | gpxtools.py:184-212 | Without repeated names in either file, the merge succeeds with the reference content, and `modified` holds iff some file2 track beats file1 |
| MergeFailures.RepeatedNameInFile1Fails | gpxtools.py:188-192 | A file1 that repeats a track name makes the merge fail on the undefined name, whatever file2 is |
| MergeFailures.UndefinedIffFile1Repeats | gpxtools.py:184-195 | The merge fails on the undefined name exactly when file1 repeats a name |
| MergeFailures.ScanOnlyNotAChild | gpxtools.py:197-212 | Visiting file2's tracks can fail only on a removal |
| MergeFailures.RemoveAbsent | gpxtools.py:209 | Removing an element that is not a child fails |
| MergeFailures.NodesNeverFile2 | gpxtools.py:202-210 | File2's own elements never become children of file1's root; only their copies do |
| MergeFailures.FirstOfNameIndexed | gpxtools.py:200-211 | The first file2 track of a name that beats file1 is indexed by file2's own element, not by its copy |
| MergeFailures.EntryPinnedAny | gpxtools.py:203-211 | Once a file2 track has entered the index, by a new name or by a replacement, its entry stays file2's element with its point count for as long as the merge has not failed |
| MergeFailures.EnteredThenGrowingFails | gpxtools.py:200-211 | Whenever a file2 track enters the index, a later track of that name with still more points makes the merge fail on a removal |
| MergeFailures.GrowingRepeatInFile2Fails | gpxtools.py:200-211 | The case of a name's first file2 track beating file1, as a corollary of EnteredThenGrowingFails: a later track of that name with still more points makes the merge fail on a removal |
| MergeFailures.ReplacingTwiceFails | gpxtools.py:200-211 | Merging `a`(1 point), `a`(2 points) into an empty file fails on `root1.remove` |
| MergeFailures.ReplaceThenGrowFails | gpxtools.py:205-211 | File1 `a`(5 points), file2 `a`(3), `a`(6), `a`(7): the 6-point track replaces file1's and the 7-point one fails on `root1.remove` |
| MergeFailures.RemovePresent | gpxtools.py:209 | Removing an element that is a child succeeds |
| MergeFailures.RemoveKeepsOthers | gpxtools.py:209 | Removing an element leaves every other child in place |
| MergeFailures.ScanSound | gpxtools.py:197-212 | Whether or not file2 repeats names, after each file2 child every index entry is file1's track of its name, still a child of file1's root, or a file2 record of its name by file2's own element, and every track seen so far is indexed with at most its entry's points |
| MergeFailures.FailureBreaksRecord | gpxtools.py:205-211 | A failing visit is a track with more points than an earlier file2 record of its name |
| MergeFailures.RecordEnters | gpxtools.py:200-211 | A file2 record that the scan reaches is appended to file1, as a copy (the last child), and indexed by file2's own element |
| MergeFailures.FileTwoFailsIffRecordBroken | gpxtools.py:184-212 | When file1 repeats no name, the merge fails exactly when some file2 record is followed by a track of its name with more points |
| MergeFailures.NotAChildIffRecordBroken | gpxtools.py:184-212 | The merge fails on `root1.remove` exactly when file1 repeats no name and some file2 record is followed by a track of its name with more points |
| MergeFailures.ShrinkingRepeatSucceeds | gpxtools.py:200-207 | `a`(5 points), then `a`(3 points), merged into an empty file succeeds: the first is appended and the second skipped |
| MergeLaws.MergeSpecMembers | gpxtools.py:197-212 | A child is in the merge result iff it is a file1 child no file2 track outdoes, or a file2 track beating every track of its name in file1 |
| MergeLaws.MergeSpecDistinct | gpxtools.py:197-212 | Merging files without repeated names gives a file without repeated names |
| MergeLaws.MergeSpecKeepsMost | gpxtools.py:205-211 | Every track of the result has at least the points of every track of its name in either file, so no name loses points |
| MergeLaws.File1NameKept | gpxtools.py:184-212 | Every name of file1 still has a track in the result |
| MergeLaws.File2NameKept | gpxtools.py:197-212 | Every name of file2 has a track in the result |
| MergeLaws.MergeSpecNames | gpxtools.py:197-212 | The result has a track of a name iff one of the files has |
| MergeLaws.OutdoneMeansModified | gpxtools.py:205-212 | When a file1 track is outdone, the merge is modified |
| MergeLaws.GainedIsNew | gpxtools.py:200-211 | A file2 track that beats file1 is not already a child of file1 |
| MergeLaws.UnmodifiedIffUnchanged | gpxtools.py:216-229 | The result equals file1 iff the merge is not modified, so file1 is rewritten exactly when its content changes |
| MergeLaws.SelfMergeIsIdentity | gpxtools.py:184-212 | Merging a file without repeated names into itself succeeds, unmodified, with the content unchanged |
| MergeLaws.MergeAgainIsIdentity | gpxtools.py:184-212 | Merging the same file2 a second time changes nothing |
| MergeLaws.MergeFilesSpec | gpxtools.py:165-236 | Non-interactive merge of two files without repeated names: file1 holds the reference merge, file2 is removed, no other file changes; a missing or unparsable file changes nothing |
| MergeLaws.MergeFilesFailsIffFile1Repeats | gpxtools.py:184-195 | When file2 has no repeated name, the file merge fails exactly when file1 has one, and then on the undefined name |
| Merge.MergeFiles | gpxtools.py:165-236 | No contract of its own: the non-interactive merge on the file system; MergeLaws.MergeFilesSpec and MergeLaws.MergeFilesFailsIffFile1Repeats state its results |
| SplitRun.BaseNameIn | gpxtools.py:92-94 | The base file of a date is among the base files of a set of dates iff the date is in the set |
| SplitRun.HandleDate | gpxtools.py:119-160 | One date: fails iff the date's base file exists and repeats a name; otherwise that base file holds the expected content and every other file keeps its state |
| SplitRun.SplitDoc | gpxtools.py:116-160 | The date loop fails iff some date's existing base file repeats a name; otherwise every date has been handled |
| SplitRun.SplitFile | gpxtools.py:102-160 | `split`: an unparsable input changes nothing. It fails (on the undefined name) iff an existing base file of one of its dates repeats a name. Otherwise the files are the old ones plus one base file per date. A new base file holds the day's tracks; an existing one holds its merge with them. The other files are unchanged, and the extra `-NNN` files are gone |

## Left out

- XML parsing, serialisation and namespace detection (`etree.parse`, `nsmap`, `tree.write`, `deepcopy`): a document is the sequence of its root's children, and a file that does not parse is an absent path.
- ISO-8601 parsing and timezone conversion (`get_date`, `parse_date`, `pytz`): a track carries the date written in its first timestamp and the instant that timestamp denotes, and a timezone is modelled as a function from instant to local date. Tracks without a timestamp, which make `parse_date` raise, are not modelled.
- `get_name` and `get_numpts` become the fields of `Gpx.Track`; the XPath lookups are not modelled.
- `distance`, `info` and the other reporting helpers: floating-point arithmetic and printing, outside track identity.
- Interactive prompts in `merge` (`input`, `raw_input`): only `interactive=False`, as `split` calls it, is modelled.
- All `print` output, and the command line.
- `os.path.exists`, `os.path.join` and `os.remove` act on the path map as exact strings: no path normalisation, no symbolic links, and `Join` follows POSIX.
- A file that exists but does not parse counts as absent for `make_filename`. The source would skip its name and then fail to parse it in `merge`.
- The order in which `split` visits its date set is Python's set order. The model chooses an arbitrary date each round, and its contract holds for every order.
- SplitRun.SplitFile: after a failure it states only the error, not the files left behind. The source crashes there with the day file already written.
- Integer widths: point counts and sequence numbers are unbounded, as Python's integers are.

=== FILE: filenames.dfy ===
/** Output file names of `split`: `<dir>/<ISO date>-<sequence>.gpx`, with the
    sequence number written as `%03d`, and the allocator `make_filename`,
    which probes sequence numbers upwards from 0 until a name is free. */
module Filenames {
  import opened Gpx

  predicate IsDigit(c: char)
  {
    '0' <= c <= '9'
  }

  predicate AllDigits(s: string)
  {
    forall k :: 0 <= k < |s| ==> IsDigit(s[k])
  }

  function DigitChar(n: nat): (c: char)
    requires n < 10
    ensures IsDigit(c)
  {
    ('0' as int + n) as char
  }

  function DigitValue(c: char): (n: nat)
    requires IsDigit(c)
    ensures n < 10
  {
    c as int - '0' as int
  }

  /** The number a string of decimal digits denotes. */
  function Value(s: string): nat
    requires AllDigits(s)
  {
    if s == [] then 0 else Value(s[..|s| - 1]) * 10 + DigitValue(s[|s| - 1])
  }

  /** `n` in decimal, without leading zeros (`%d`). */
  function Decimal(n: nat): (s: string)
    ensures 1 <= |s| && AllDigits(s)
  {
    if n < 10 then [DigitChar(n)] else Decimal(n / 10) + [DigitChar(n % 10)]
  }

  /** `n` in decimal, left-padded with zeros to at least `width` characters
      (`%0<width>d`). */
  function ZeroPad(n: nat, width: nat): (s: string)
    ensures |s| == if |Decimal(n)| < width then width else |Decimal(n)|
    ensures AllDigits(s)
  {
    var digits := Decimal(n);
    if |digits| < width then seq(width - |digits|, _ => '0') + digits else digits
  }

  /** `date.isoformat()`: `YYYY-MM-DD`. */
  function IsoFormat(d: Date): string
  {
    ZeroPad(d.year, 4) + "-" + ZeroPad(d.month, 2) + "-" + ZeroPad(d.day, 2)
  }

  /** `os.path.join(dir, name)` on POSIX. */
  function Join(dir: string, name: string): (path: string)
    ensures |path| >= |name|
  {
    if |name| > 0 && name[0] == '/' then name
    else if dir == [] || dir[|dir| - 1] == '/' then dir + name
    else dir + "/" + name
  }

  /** `"%s-%03d.gpx" % (d.isoformat(), n)`: a candidate name without its directory. */
  function FileName(d: Date, n: nat): string
  {
    IsoFormat(d) + "-" + ZeroPad(n, 3) + ".gpx"
  }

  /** The candidate with sequence number `n` for date `d` in `dir`. */
  function SeqName(d: Date, dir: string, n: nat): string
  {
    Join(dir, FileName(d, n))
  }

  /** The sequence-0 name, the base file for date `d`. */
  function BaseName(d: Date, dir: string): string
  {
    SeqName(d, dir, 0)
  }

  function Pow10(k: nat): (p: nat)
    ensures p >= 1
  {
    if k == 0 then 1 else 10 * Pow10(k - 1)
  }

  /** An upper bound on the lengths of a finite set of names. */
  ghost function MaxLen(names: set<string>): (m: nat)
    ensures forall x :: x in names ==> |x| <= m
  {
    if names == {} then 0
    else
      var x :| x in names;
      var rest := MaxLen(names - {x});
      if |x| > rest then |x| else rest
  }

  /** A number of at least `10^k` needs more than `k` digits. */
  lemma {:induction false} DecimalLength(n: nat, k: nat)
    requires n >= Pow10(k)
    ensures |Decimal(n)| > k
  {
    if k > 0 {
      assert n >= 10;
      assert n / 10 >= Pow10(k - 1);
      DecimalLength(n / 10, k - 1);
    }
  }

  /** Candidates with sequence numbers of more digits than the longest
      existing name are free, so a taken one has a small number. */
  lemma TakenCandidateIsNear(d: Date, dir: string, existing: set<string>, n: nat)
    requires SeqName(d, dir, n) in existing
    ensures n < Pow10(MaxLen(existing))
  {
    if n >= Pow10(MaxLen(existing)) {
      DecimalLength(n, MaxLen(existing));
    }
  }

  // ---------------------------------------------------------------------------
  // Different candidates are different names

  lemma {:induction false} ValueOfDecimal(n: nat)
    ensures Value(Decimal(n)) == n
  {
    if n >= 10 {
      ValueOfDecimal(n / 10);
      var s := Decimal(n);
      assert s[..|s| - 1] == Decimal(n / 10);
    }
  }

  /** Leading zeros do not change a number. */
  lemma {:induction false} ValueAfterZeros(z: string, s: string)
    requires forall k :: 0 <= k < |z| ==> z[k] == '0'
    requires AllDigits(s)
    ensures AllDigits(z + s) && Value(z + s) == Value(s)
  {
    var r := z + s;
    if s == [] {
      assert r == z;
      if z != [] {
        ValueAfterZeros(z[..|z| - 1], []);
        assert z[..|z| - 1] + [] == z[..|z| - 1];
      }
    } else {
      ValueAfterZeros(z, s[..|s| - 1]);
      assert r[..|r| - 1] == z + s[..|s| - 1];
    }
  }

  /** Reading a zero-padded number back gives the number. */
  lemma ValueOfZeroPad(n: nat, width: nat)
    ensures Value(ZeroPad(n, width)) == n
  {
    var digits := Decimal(n);
    ValueOfDecimal(n);
    if |digits| < width {
      ValueAfterZeros(seq(width - |digits|, _ => '0'), digits);
    }
  }

  /** Position of the first `-` of `s`, or `|s|` when there is none. */
  function FirstDash(s: string): (k: nat)
    ensures k <= |s|
  {
    if s == [] || s[0] == '-' then 0 else 1 + FirstDash(s[1..])
  }

  lemma {:induction false} FirstDashAfterDigits(x: string, y: string)
    requires AllDigits(x)
    ensures FirstDash(x + "-" + y) == |x|
  {
    if x != [] {
      FirstDashAfterDigits(x[1..], y);
      assert (x + "-" + y)[1..] == x[1..] + "-" + y;
    }
  }

  /** A digit string followed by `-` can be split off unambiguously. */
  lemma DashSplit(x1: string, y1: string, x2: string, y2: string)
    requires AllDigits(x1) && AllDigits(x2)
    requires x1 + "-" + y1 == x2 + "-" + y2
    ensures x1 == x2 && y1 == y2
  {
    var s := x1 + "-" + y1;
    FirstDashAfterDigits(x1, y1);
    FirstDashAfterDigits(x2, y2);
    assert x1 == s[..|x1|] && y1 == s[|x1| + 1..];
    assert x2 == s[..|x2|] && y2 == s[|x2| + 1..];
  }

  /** Joining one directory with names that do not start with `/`. */
  lemma JoinInjective(dir: string, a: string, b: string)
    requires |a| > 0 && a[0] != '/' && |b| > 0 && b[0] != '/'
    requires Join(dir, a) == Join(dir, b)
    ensures a == b
  {
    var prefix := if dir == [] || dir[|dir| - 1] == '/' then dir else dir + "/";
    assert Join(dir, a) == prefix + a && Join(dir, b) == prefix + b;
    assert a == (prefix + a)[|prefix|..];
    assert b == (prefix + b)[|prefix|..];
  }

  /** The four numbers of a name, as digit strings separated by dashes. */
  lemma FileNameShape(d: Date, n: nat)
    ensures FileName(d, n) == ZeroPad(d.year, 4) + "-" + (ZeroPad(d.month, 2) + "-" + (ZeroPad(d.day, 2) + "-" + (ZeroPad(n, 3) + ".gpx")))
  {
  }

  lemma NumberPartInjective(q1: string, q2: string)
    requires q1 + ".gpx" == q2 + ".gpx"
    ensures q1 == q2
  {
    assert q1 == (q1 + ".gpx")[..|q1|];
    assert q2 == (q2 + ".gpx")[..|q2|];
  }

  lemma FileNameInjective(d1: Date, n1: nat, d2: Date, n2: nat)
    requires FileName(d1, n1) == FileName(d2, n2)
    ensures d1 == d2 && n1 == n2
  {
    var y1, m1, a1, q1 := ZeroPad(d1.year, 4), ZeroPad(d1.month, 2), ZeroPad(d1.day, 2), ZeroPad(n1, 3);
    var y2, m2, a2, q2 := ZeroPad(d2.year, 4), ZeroPad(d2.month, 2), ZeroPad(d2.day, 2), ZeroPad(n2, 3);
    FileNameShape(d1, n1);
    FileNameShape(d2, n2);
    DashSplit(y1, m1 + "-" + (a1 + "-" + (q1 + ".gpx")), y2, m2 + "-" + (a2 + "-" + (q2 + ".gpx")));
    DashSplit(m1, a1 + "-" + (q1 + ".gpx"), m2, a2 + "-" + (q2 + ".gpx"));
    DashSplit(a1, q1 + ".gpx", a2, q2 + ".gpx");
    NumberPartInjective(q1, q2);
    ValueOfZeroPad(d1.year, 4);
    ValueOfZeroPad(d2.year, 4);
    ValueOfZeroPad(d1.month, 2);
    ValueOfZeroPad(d2.month, 2);
    ValueOfZeroPad(d1.day, 2);
    ValueOfZeroPad(d2.day, 2);
    ValueOfZeroPad(n1, 3);
    ValueOfZeroPad(n2, 3);
  }

  /** A candidate name determines its date and its sequence number. */
  lemma SeqNameInjective(d1: Date, n1: nat, d2: Date, n2: nat, dir: string)
    requires SeqName(d1, dir, n1) == SeqName(d2, dir, n2)
    ensures d1 == d2 && n1 == n2
  {
    var f1, f2 := FileName(d1, n1), FileName(d2, n2);
    FileNameShape(d1, n1);
    FileNameShape(d2, n2);
    assert IsDigit(f1[0]) && IsDigit(f2[0]);
    JoinInjective(dir, f1, f2);
    FileNameInjective(d1, n1, d2, n2);
  }

  /** `make_filename`: the first free candidate for date `d` in `dir`, the
      sequence-0 name (global `base_file`) and whether a name was taken
      already (global `do_merge`). `existing` is the set of names for which
      `os.path.exists` holds. */
  method MakeFilename(d: Date, dir: string, existing: set<string>)
    returns (n: nat, fname: string, baseFile: string, doMerge: bool)
    ensures fname == SeqName(d, dir, n) && fname !in existing
    ensures forall m: nat :: m < n ==> SeqName(d, dir, m) in existing
    ensures baseFile == BaseName(d, dir)
    ensures doMerge <==> baseFile in existing
    ensures doMerge <==> n > 0
  {
    doMerge := false;
    n := 0;
    fname := SeqName(d, dir, n);
    baseFile := fname;
    ghost var bound := Pow10(MaxLen(existing));
    while fname in existing
      invariant fname == SeqName(d, dir, n)
      invariant forall m: nat :: m < n ==> SeqName(d, dir, m) in existing
      invariant doMerge <==> n > 0
      invariant n <= bound
      decreases bound - n
    {
      TakenCandidateIsNear(d, dir, existing, n);
      assert forall m: nat :: m < n + 1 ==> SeqName(d, dir, m) in existing;
      n := n + 1;
      fname := SeqName(d, dir, n);
      doMerge := true;
    }
  }
}

=== FILE: gpx.dfy ===
/** The part of a parsed GPX document that track identity resolution looks at.
    The XML tree is reduced to the ordered sequence of the root's children:
    each child is a `<trk>` element, summarised by the three things the tools
    read from it (name, first timestamp and point count), or some other
    element (route, waypoint, metadata, comment). */
module Gpx {

  datatype Option<+T> = None | Some(value: T)

  /** A calendar date, as `datetime.date` gives it. It is supplied from outside:
      timestamp parsing is not modelled. */
  datatype Date = Date(year: nat, month: nat, day: nat)

  /** A `<trk>` element: its `<name>` text ("" when absent), the first
      `<time>` under any of its track points, in document order, and the number of track points over all
      of its segments. The time is kept twice: `date` is the calendar date as
      written in the timestamp (in the timestamp's own offset), and `time` is
      the instant it denotes, in seconds since the epoch. */
  datatype Track = Track(name: string, date: Date, time: int, numpts: nat)

  datatype Child = Trk(track: Track) | Other

  type Doc = seq<Child>

  /** The files the tools read and write, by path, each as parsed. A path
      that is absent stands for a file that does not exist or does not parse. */
  type FileSystem = map<string, Doc>

  /** A configured timezone, seen through the only thing the tools ask of it:
      the local calendar date of an instant. */
  type Zone = int -> Date

  /** The date of a track, localised when a timezone is configured. */
  function TrackDate(t: Track, tz: Option<Zone>): Date
  {
    match tz
    case None => t.date
    case Some(zone) => zone(t.time)
  }

  /** The dates of all tracks of a document. No timezone is applied. */
  function Dates(doc: Doc): (ds: set<Date>)
    ensures forall i :: 0 <= i < |doc| && doc[i].Trk? ==> doc[i].track.date in ds
    ensures forall d :: d in ds ==> exists i :: 0 <= i < |doc| && doc[i].Trk? && doc[i].track.date == d
  {
    set i | 0 <= i < |doc| && doc[i].Trk? :: doc[i].track.date
  }

  /** Whether the child at position `i` is a track called `name`. */
  predicate IsTrackNamed(doc: Doc, i: int, name: string)
  {
    0 <= i < |doc| && doc[i].Trk? && doc[i].track.name == name
  }

  predicate HasTrack(doc: Doc, name: string)
  {
    exists i :: 0 <= i < |doc| && IsTrackNamed(doc, i, name)
  }

  /** No two tracks of the document share a name. */
  predicate DistinctNames(doc: Doc)
  {
    forall i, j :: 0 <= i < j < |doc| && doc[i].Trk? && doc[j].Trk? ==> doc[i].track.name != doc[j].track.name
  }
}

=== FILE: merge.dfy ===
/** `merge(file1, file2)`: the tracks of file2 are folded into file1. File1's
    tracks are indexed by name; a file2 track of a new name is appended, one
    with strictly more points than the indexed track replaces it (the indexed
    element is removed and the file2 track appended), any other is skipped. */
module Merge {
  import opened Gpx

  /** The identity of an element: the `i`-th child of file1, the `j`-th child
      of file2, or the deep copy of file2's `j`-th child appended to file1. */
  datatype Ref = Orig1(i: nat) | Elem2(j: nat) | Copy2(j: nat)

  /** A child of file1's root together with its identity. */
  datatype Node = Node(ref: Ref, child: Child)

  /** Index entry: point count and the element it was read from. */
  datatype Entry = Entry(numpts: nat, ref: Ref)

  type Index = map<string, Entry>

  datatype MergeError =
    | UndefinedTracks(name: string)  // file1 repeats a track name: the lookup in the undefined `tracks` raises
    | NotAChild(name: string)        // `root1.remove` is given an element that is not a child of root1

  datatype Result<T> = Ok(value: T) | Err(error: MergeError)

  /** The new content of file1 and whether anything changed. */
  datatype Merged = Merged(doc: Doc, modified: bool)

  /** State while file2's tracks are visited. */
  datatype State = State(nodes: seq<Node>, index: Index, modified: bool)

  function Children(nodes: seq<Node>): (doc: Doc)
    ensures |doc| == |nodes|
    ensures forall k :: 0 <= k < |nodes| ==> doc[k] == nodes[k].child
  {
    seq(|nodes|, k requires 0 <= k < |nodes| => nodes[k].child)
  }

  /** File1's children as parsed. */
  function Nodes1(doc1: Doc): (nodes: seq<Node>)
    ensures |nodes| == |doc1|
    ensures forall i :: 0 <= i < |doc1| ==> nodes[i] == Node(Orig1(i), doc1[i])
  {
    seq(|doc1|, i requires 0 <= i < |doc1| => Node(Orig1(i), doc1[i]))
  }

  /** `root1.remove(element)`: the children without the one with reference
      `r`, or `None` when no child has it (lxml raises). References of
      root1's children are unique, so it does not matter which end the
      search starts from. */
  function RemoveNode(nodes: seq<Node>, r: Ref): Option<seq<Node>>
  {
    if nodes == [] then None
    else
      var last := nodes[|nodes| - 1];
      if last.ref == r then Some(nodes[..|nodes| - 1])
      else
        match RemoveNode(nodes[..|nodes| - 1], r)
        case None => None
        case Some(rest) => Some(rest + [last])
  }

  /** The index of file1's tracks after its first `n` children. A repeated
      name fails: that branch reads the undefined name `tracks`. */
  function IndexFile1(doc1: Doc, n: nat): Result<Index>
    requires n <= |doc1|
  {
    if n == 0 then Ok(map[])
    else
      match IndexFile1(doc1, n - 1)
      case Err(e) => Err(e)
      case Ok(index) =>
        match doc1[n - 1]
        case Other => Ok(index)
        case Trk(t) =>
          if t.name in index then Err(UndefinedTracks(t.name))
          else Ok(index[t.name := Entry(t.numpts, Orig1(n - 1))])
  }

  /** Visit file2's child `j`. The index entry written for a file2 track
      refers to file2's own element, not to the copy appended to file1. */
  function MergeStep(doc2: Doc, s: State, j: nat): Result<State>
    requires j < |doc2|
  {
    match doc2[j]
    case Other => Ok(s)
    case Trk(t) =>
      if t.name !in s.index then
        Ok(State(s.nodes + [Node(Copy2(j), doc2[j])], s.index[t.name := Entry(t.numpts, Elem2(j))], true))
      else if t.numpts > s.index[t.name].numpts then
        match RemoveNode(s.nodes, s.index[t.name].ref)
        case None => Err(NotAChild(t.name))
        case Some(rest) =>
          Ok(State(rest + [Node(Copy2(j), doc2[j])], s.index[t.name := Entry(t.numpts, Elem2(j))], true))
      else Ok(s)
  }

  /** The state after visiting file2's first `n` children. */
  function MergeScan(doc1: Doc, doc2: Doc, index1: Index, n: nat): Result<State>
    requires n <= |doc2|
  {
    if n == 0 then Ok(State(Nodes1(doc1), index1, false))
    else
      match MergeScan(doc1, doc2, index1, n - 1)
      case Err(e) => Err(e)
      case Ok(s) => MergeStep(doc2, s, n - 1)
  }

  /** The in-memory part of `merge`: file1's new children and `modified`. */
  function MergeDocs(doc1: Doc, doc2: Doc): Result<Merged>
  {
    match IndexFile1(doc1, |doc1|)
    case Err(e) => Err(e)
    case Ok(index1) =>
      match MergeScan(doc1, doc2, index1, |doc2|)
      case Err(e) => Err(e)
      case Ok(s) => Ok(Merged(Children(s.nodes), s.modified))
  }

  /** Non-interactive `merge(file1, file2)` on the file system: a file that
      cannot be parsed leaves everything as it is; otherwise file1 is
      rewritten when modified, and file2 is removed in either case. */
  function MergeFiles(fs: FileSystem, file1: string, file2: string): Result<FileSystem>
  {
    if file1 !in fs || file2 !in fs then Ok(fs)
    else
      match MergeDocs(fs[file1], fs[file2])
      case Err(e) => Err(e)
      case Ok(m) => if m.modified then Ok(fs[file1 := m.doc] - {file2}) else Ok(fs - {file2})
  }

  // ---------------------------------------------------------------------------
  // Reference definition

  /** Track `t` has more points than every track of its name in `doc1`
      (vacuously so when `doc1` has none). */
  predicate Beats(t: Track, doc1: Doc)
  {
    forall i :: 0 <= i < |doc1| && IsTrackNamed(doc1, i, t.name) ==> doc1[i].track.numpts < t.numpts
  }

  /** Some track of `doc2` has the name of `t` and more points. */
  predicate Outdone(t: Track, doc2: Doc)
  {
    exists j :: 0 <= j < |doc2| && IsTrackNamed(doc2, j, t.name) && doc2[j].track.numpts > t.numpts
  }

  predicate Survives(c: Child, doc2: Doc)
  {
    !(c.Trk? && Outdone(c.track, doc2))
  }

  predicate Gains(c: Child, doc1: Doc)
  {
    c.Trk? && Beats(c.track, doc1)
  }

  /** File1's first `n` children that are not tracks outdone by `doc2`. */
  function KeptOf(doc1: Doc, doc2: Doc, n: nat): Doc
    requires n <= |doc1|
  {
    if n == 0 then []
    else KeptOf(doc1, doc2, n - 1) + (if Survives(doc1[n - 1], doc2) then [doc1[n - 1]] else [])
  }

  /** The tracks among file2's first `n` children that beat file1. */
  function GainedOf(doc1: Doc, doc2: Doc, n: nat): Doc
    requires n <= |doc2|
  {
    if n == 0 then []
    else GainedOf(doc1, doc2, n - 1) + (if Gains(doc2[n - 1], doc1) then [doc2[n - 1]] else [])
  }

  /** What file1 should hold after the merge: its children that are not
      outdone, in place, then file2's tracks that beat file1, in order. */
  function MergeSpec(doc1: Doc, doc2: Doc): Doc
  {
    KeptOf(doc1, doc2, |doc1|) + GainedOf(doc1, doc2, |doc2|)
  }

  /** Whether the merge should change file1. */
  predicate ModifiedSpec(doc1: Doc, doc2: Doc)
  {
    exists j :: 0 <= j < |doc2| && Gains(doc2[j], doc1)
  }
}

=== FILE: merge_failures.dfy ===
/** Exactly when the merge fails: a file1 that repeats a track name always
    makes it fail on the undefined name, and otherwise it fails, on a
    removal, exactly when a file2 track that was appended and indexed is
    followed by a track of its name with still more points. */
module MergeFailures {
  import opened Gpx
  import opened Merge
  import opened MergeCorrectness

  // ---------------------------------------------------------------------------
  // Repeated names in file1

  /** A file1 that repeats a track name makes the merge fail, whatever file2 is. */
  lemma RepeatedNameInFile1Fails(doc1: Doc, doc2: Doc)
    requires !DistinctNames(doc1)
    ensures MergeDocs(doc1, doc2).Err? && MergeDocs(doc1, doc2).error.UndefinedTracks?
  {
    var a, b :| 0 <= a < b < |doc1| && doc1[a].Trk? && doc1[b].Trk? && doc1[a].track.name == doc1[b].track.name;
    IndexFile1FailsOnRepeat(doc1, |doc1|, a, b);
  }

  /** Once the scan has failed, it stays failed with the same error. */
  lemma {:induction false} ScanErrPropagates(doc1: Doc, doc2: Doc, index1: Index, j: nat, k: nat)
    requires j <= k <= |doc2|
    ensures MergeScan(doc1, doc2, index1, j).Err? ==>
              MergeScan(doc1, doc2, index1, k) == MergeScan(doc1, doc2, index1, j)
  {
    if k > j {
      ScanErrPropagates(doc1, doc2, index1, j, k - 1);
    }
  }

  /** Visiting file2 can only fail on a removal. */
  lemma {:induction false} ScanOnlyNotAChild(doc1: Doc, doc2: Doc, index1: Index, j: nat)
    requires j <= |doc2|
    ensures MergeScan(doc1, doc2, index1, j).Err? ==> MergeScan(doc1, doc2, index1, j).error.NotAChild?
  {
    if j > 0 {
      ScanOnlyNotAChild(doc1, doc2, index1, j - 1);
    }
  }

  /** The merge fails on the undefined name exactly when file1 repeats a
      track name. */
  lemma UndefinedIffFile1Repeats(doc1: Doc, doc2: Doc)
    ensures (MergeDocs(doc1, doc2).Err? && MergeDocs(doc1, doc2).error.UndefinedTracks?) <==> !DistinctNames(doc1)
  {
    if !DistinctNames(doc1) {
      RepeatedNameInFile1Fails(doc1, doc2);
    } else {
      IndexFile1Describes(doc1, |doc1|);
      ScanOnlyNotAChild(doc1, doc2, IndexFile1(doc1, |doc1|).value, |doc2|);
    }
  }

  // ---------------------------------------------------------------------------
  // Repeated names in file2

  lemma {:induction false} RemoveNodeSubset(nodes: seq<Node>, r: Ref)
    ensures RemoveNode(nodes, r).Some? ==> forall x :: x in RemoveNode(nodes, r).value ==> x in nodes
  {
    if nodes != [] {
      RemoveNodeSubset(nodes[..|nodes| - 1], r);
    }
  }

  /** `root1.remove` of an element that is not a child fails. */
  lemma {:induction false} RemoveAbsent(nodes: seq<Node>, r: Ref)
    requires forall x :: x in nodes ==> x.ref != r
    ensures RemoveNode(nodes, r) == None
  {
    if nodes != [] {
      assert nodes[|nodes| - 1] in nodes;
      RemoveAbsent(nodes[..|nodes| - 1], r);
    }
  }

  /** File2's own elements never become children of file1's root: only
      their copies are appended. */
  lemma {:induction false} NodesNeverFile2(doc1: Doc, doc2: Doc, index1: Index, j: nat)
    requires j <= |doc2|
    ensures MergeScan(doc1, doc2, index1, j).Ok? ==>
              forall x :: x in MergeScan(doc1, doc2, index1, j).value.nodes ==> !x.ref.Elem2?
  {
    if j > 0 {
      NodesNeverFile2(doc1, doc2, index1, j - 1);
      ScanErrPropagates(doc1, doc2, index1, j - 1, j);
      if MergeScan(doc1, doc2, index1, j - 1).Ok? {
        var s := MergeScan(doc1, doc2, index1, j - 1).value;
        if doc2[j - 1].Trk? && doc2[j - 1].track.name in s.index {
          RemoveNodeSubset(s.nodes, s.index[doc2[j - 1].track.name].ref);
        }
      }
    }
  }

  /** Names file2 has not shown yet keep file1's index entries. */
  lemma {:induction false} UnseenKeepFile1Entry(doc1: Doc, doc2: Doc, index1: Index, j: nat)
    requires j <= |doc2|
    ensures MergeScan(doc1, doc2, index1, j).Ok? ==>
              forall name :: !NamedIn(doc2, j, name) ==>
                && (name in MergeScan(doc1, doc2, index1, j).value.index <==> name in index1)
                && (name in index1 ==> MergeScan(doc1, doc2, index1, j).value.index[name] == index1[name])
  {
    if j > 0 {
      UnseenKeepFile1Entry(doc1, doc2, index1, j - 1);
      ScanErrPropagates(doc1, doc2, index1, j - 1, j);
      NamedExtend(doc2, j - 1);
      if MergeScan(doc1, doc2, index1, j).Ok? {
        var s := MergeScan(doc1, doc2, index1, j - 1).value;
        var s' := MergeStep(doc2, s, j - 1).value;
        assert MergeScan(doc1, doc2, index1, j).value == s';
        forall name | !NamedIn(doc2, j, name)
          ensures name in s'.index <==> name in index1
          ensures name in index1 ==> s'.index[name] == index1[name]
        {
          assert !NamedIn(doc2, j - 1, name);
          assert name in s'.index <==> name in s.index;
        }
      }
    }
  }

  /** The first file2 track of a name, beating file1, is indexed by its own
      element. */
  lemma FirstOfNameIndexed(doc1: Doc, doc2: Doc, index1: Index, a: nat)
    requires IndexDescribes(doc1, |doc1|, index1)
    requires a < |doc2| && doc2[a].Trk? && !NamedIn(doc2, a, doc2[a].track.name)
    requires Gains(doc2[a], doc1)
    ensures MergeScan(doc1, doc2, index1, a + 1).Ok? ==>
              && doc2[a].track.name in MergeScan(doc1, doc2, index1, a + 1).value.index
              && MergeScan(doc1, doc2, index1, a + 1).value.index[doc2[a].track.name]
                   == Entry(doc2[a].track.numpts, Elem2(a))
  {
    var name := doc2[a].track.name;
    UnseenKeepFile1Entry(doc1, doc2, index1, a);
    ScanErrPropagates(doc1, doc2, index1, a, a + 1);
    if name in index1 {
      assert IsTrackNamed(doc1, index1[name].ref.i, name);
    }
  }

  /** After visiting file2's child `a`, a track, the scan has not failed and
      the index maps its name to `a`'s own element: `a` was appended, either
      under a new name or replacing a track with fewer points. */
  predicate Entered(doc1: Doc, doc2: Doc, index1: Index, a: nat)
    requires a < |doc2| && doc2[a].Trk?
  {
    var r := MergeScan(doc1, doc2, index1, a + 1);
    && r.Ok?
    && doc2[a].track.name in r.value.index
    && r.value.index[doc2[a].track.name] == Entry(doc2[a].track.numpts, Elem2(a))
  }

  /** An entry that refers to file2's element `a` stays as long as the scan
      goes on: a later track of the name with no more points is skipped, and
      one with more points fails on the removal. */
  lemma {:induction false} EntryPinnedAny(doc1: Doc, doc2: Doc, index1: Index, a: nat, k: nat)
    requires a < k <= |doc2| && doc2[a].Trk?
    requires Entered(doc1, doc2, index1, a)
    ensures MergeScan(doc1, doc2, index1, k).Ok? ==>
              && doc2[a].track.name in MergeScan(doc1, doc2, index1, k).value.index
              && MergeScan(doc1, doc2, index1, k).value.index[doc2[a].track.name]
                   == Entry(doc2[a].track.numpts, Elem2(a))
  {
    if k > a + 1 {
      EntryPinnedAny(doc1, doc2, index1, a, k - 1);
      ScanErrPropagates(doc1, doc2, index1, k - 1, k);
      NodesNeverFile2(doc1, doc2, index1, k - 1);
      var r := MergeScan(doc1, doc2, index1, k - 1);
      if r.Ok? {
        assert MergeScan(doc1, doc2, index1, k) == MergeStep(doc2, r.value, k - 1);
        if doc2[k - 1].Trk? && doc2[k - 1].track.name == doc2[a].track.name {
          RemoveAbsent(r.value.nodes, Elem2(a));
        }
      }
    }
  }

  /** Whenever a file2 track enters the index, by a new name or by a
      replacement, a later track of that name with still more points makes
      the merge fail on a removal. */
  lemma EnteredThenGrowingFails(doc1: Doc, doc2: Doc, a: nat, b: nat)
    requires IndexFile1(doc1, |doc1|).Ok?
    requires a < b < |doc2| && doc2[a].Trk? && IsTrackNamed(doc2, b, doc2[a].track.name)
    requires Entered(doc1, doc2, IndexFile1(doc1, |doc1|).value, a)
    requires doc2[b].track.numpts > doc2[a].track.numpts
    ensures MergeDocs(doc1, doc2).Err? && MergeDocs(doc1, doc2).error.NotAChild?
  {
    var index1 := IndexFile1(doc1, |doc1|).value;
    EntryPinnedAny(doc1, doc2, index1, a, b);
    NodesNeverFile2(doc1, doc2, index1, b);
    ScanErrPropagates(doc1, doc2, index1, b, b + 1);
    var r := MergeScan(doc1, doc2, index1, b);
    if r.Ok? {
      RemoveAbsent(r.value.nodes, Elem2(a));
      assert MergeScan(doc1, doc2, index1, b + 1) == MergeStep(doc2, r.value, b);
    }
    ScanErrPropagates(doc1, doc2, index1, b + 1, |doc2|);
    ScanOnlyNotAChild(doc1, doc2, index1, |doc2|);
  }

  /** The case of a name's first file2 track beating file1, a corollary of
      `EnteredThenGrowingFails`: such a track enters the index, so a later
      track of that name with still more points makes the merge fail. */
  lemma GrowingRepeatInFile2Fails(doc1: Doc, doc2: Doc, a: nat, b: nat)
    requires DistinctNames(doc1)
    requires a < b < |doc2| && doc2[a].Trk? && IsTrackNamed(doc2, b, doc2[a].track.name)
    requires !NamedIn(doc2, a, doc2[a].track.name)
    requires Gains(doc2[a], doc1)
    requires doc2[b].track.numpts > doc2[a].track.numpts
    ensures MergeDocs(doc1, doc2).Err? && MergeDocs(doc1, doc2).error.NotAChild?
  {
    IndexFile1Describes(doc1, |doc1|);
    var index1 := IndexFile1(doc1, |doc1|).value;
    FirstOfNameIndexed(doc1, doc2, index1, a);
    if MergeScan(doc1, doc2, index1, a + 1).Ok? {
      EnteredThenGrowingFails(doc1, doc2, a, b);
    } else {
      ScanErrPropagates(doc1, doc2, index1, a + 1, |doc2|);
      ScanOnlyNotAChild(doc1, doc2, index1, |doc2|);
    }
  }

  /** A name that file2 replaces twice makes the merge fail: the index holds
      file2's element, which `root1.remove` does not find among file1's
      children. Here file2 brings "a" with 1 point, then with 2 points. */
  lemma ReplacingTwiceFails()
    ensures var day := Date(2014, 6, 1);
            MergeDocs([], [Trk(Track("a", day, 1401606000, 1)), Trk(Track("a", day, 1401609600, 2))])
              == Err(NotAChild("a"))
  {
  }

  /** The entry can also come from a replacement: file1 has "a" with 5
      points, and file2 brings "a" with 3, 6 and 7 points. The 3-point track
      is skipped, the 6-point one replaces file1's track and is indexed by
      file2's element, and the 7-point one then fails to remove it. */
  lemma ReplaceThenGrowFails()
    ensures var day := Date(2014, 6, 1);
            var doc1 := [Trk(Track("a", day, 1401606000, 5))];
            var doc2 := [Trk(Track("a", day, 1401606000, 3)), Trk(Track("a", day, 1401609600, 6)),
                         Trk(Track("a", day, 1401613200, 7))];
            MergeDocs(doc1, doc2) == Err(NotAChild("a"))
  {
    var day := Date(2014, 6, 1);
    var doc1 := [Trk(Track("a", day, 1401606000, 5))];
    var doc2 := [Trk(Track("a", day, 1401606000, 3)), Trk(Track("a", day, 1401609600, 6)),
                 Trk(Track("a", day, 1401613200, 7))];
    var index1 := map["a" := Entry(5, Orig1(0))];
    assert IndexFile1(doc1, 1) == Ok(index1);
    var s0 := State([Node(Orig1(0), doc1[0])], index1, false);
    assert Nodes1(doc1) == s0.nodes;
    assert MergeScan(doc1, doc2, index1, 0) == Ok(s0);
    assert MergeStep(doc2, s0, 0) == Ok(s0);
    assert MergeScan(doc1, doc2, index1, 1) == Ok(s0);
    var s2 := State([Node(Copy2(1), doc2[1])], index1["a" := Entry(6, Elem2(1))], true);
    assert RemoveNode(s0.nodes, Orig1(0)) == Some([]);
    assert [] + [Node(Copy2(1), doc2[1])] == s2.nodes;
    assert MergeStep(doc2, s0, 1) == Ok(s2);
    assert MergeScan(doc1, doc2, index1, 2) == Ok(s2);
    assert RemoveNode(s2.nodes, Elem2(1)) == None;
  }

  // ---------------------------------------------------------------------------
  // Exactly when file2 makes the merge fail

  /** File2's child `a` is a record for its name: a track with more points
      than file1's track of that name and than every earlier file2 track of
      that name. Such a track is the one the merge appends and indexes. */
  predicate Record(doc1: Doc, doc2: Doc, a: nat)
  {
    && a < |doc2| && doc2[a].Trk?
    && Beats(doc2[a].track, doc1)
    && forall k :: 0 <= k < a && IsTrackNamed(doc2, k, doc2[a].track.name) ==>
         doc2[k].track.numpts < doc2[a].track.numpts
  }

  /** Some record of file2 is followed by a track of its name with still
      more points. */
  predicate RecordBroken(doc1: Doc, doc2: Doc)
  {
    exists a, b :: 0 <= a < b < |doc2| && Record(doc1, doc2, a) && IsTrackNamed(doc2, b, doc2[a].track.name)
                   && doc2[b].track.numpts > doc2[a].track.numpts
  }

  /** Some child of file1's root has reference `r`. */
  predicate Present(nodes: seq<Node>, r: Ref)
  {
    exists k :: 0 <= k < |nodes| && nodes[k].ref == r
  }

  /** `root1.remove` of a child succeeds. */
  lemma {:induction false} RemovePresent(nodes: seq<Node>, r: Ref)
    requires Present(nodes, r)
    ensures RemoveNode(nodes, r).Some?
  {
    var last := |nodes| - 1;
    if nodes[last].ref != r {
      var k :| 0 <= k < |nodes| && nodes[k].ref == r;
      assert nodes[..last][k].ref == r;
      RemovePresent(nodes[..last], r);
    }
  }

  /** `root1.remove` leaves every other child in place. */
  lemma {:induction false} RemoveKeepsOthers(nodes: seq<Node>, r: Ref, rest: seq<Node>, r': Ref)
    requires RemoveNode(nodes, r) == Some(rest)
    requires r' != r && Present(nodes, r')
    ensures Present(rest, r')
  {
    var last := |nodes| - 1;
    var k :| 0 <= k < |nodes| && nodes[k].ref == r';
    if nodes[last].ref == r {
      assert rest[k].ref == r';
    } else {
      var rest0 := RemoveNode(nodes[..last], r).value;
      assert rest == rest0 + [nodes[last]];
      if k == last {
        assert rest[|rest0|].ref == r';
      } else {
        assert nodes[..last][k].ref == r';
        RemoveKeepsOthers(nodes[..last], r, rest0, r');
        var k0 :| 0 <= k0 < |rest0| && rest0[k0].ref == r';
        assert rest[k0].ref == r';
      }
    }
  }

  /** What an index entry refers to after visiting file2's first `j`
      children: file1's track of that name, still a child of file1's root,
      or a file2 record of that name, by file2's own element. */
  ghost predicate SoundEntry(doc1: Doc, doc2: Doc, j: nat, nodes: seq<Node>, name: string, e: Entry)
  {
    match e.ref
    case Orig1(i) => IsTrackNamed(doc1, i, name) && e.numpts == doc1[i].track.numpts && Present(nodes, e.ref)
    case Elem2(a) => a < j && IsTrackNamed(doc2, a, name) && e.numpts == doc2[a].track.numpts && Record(doc1, doc2, a)
    case Copy2(_) => false
  }

  /** The scan invariant that holds whether or not file2 repeats names:
      entries are sound, and every track seen so far, in file1 or in file2,
      is indexed with at most the entry's point count. */
  ghost predicate Sound(doc1: Doc, doc2: Doc, j: nat, s: State)
  {
    && (forall name :: name in s.index ==> SoundEntry(doc1, doc2, j, s.nodes, name, s.index[name]))
    && (forall i :: 0 <= i < |doc1| && doc1[i].Trk? ==>
          doc1[i].track.name in s.index && doc1[i].track.numpts <= s.index[doc1[i].track.name].numpts)
    && (forall k :: 0 <= k < j && k < |doc2| && doc2[k].Trk? ==>
          doc2[k].track.name in s.index && doc2[k].track.numpts <= s.index[doc2[k].track.name].numpts)
  }

  lemma SoundAtStart(doc1: Doc, doc2: Doc, index1: Index)
    requires DistinctNames(doc1)
    requires IndexDescribes(doc1, |doc1|, index1)
    ensures Sound(doc1, doc2, 0, State(Nodes1(doc1), index1, false))
  {
    var nodes := Nodes1(doc1);
    forall name | name in index1
      ensures SoundEntry(doc1, doc2, 0, nodes, name, index1[name])
    {
      assert nodes[index1[name].ref.i].ref == index1[name].ref;
    }
    forall i | 0 <= i < |doc1| && doc1[i].Trk?
      ensures doc1[i].track.name in index1 && doc1[i].track.numpts <= index1[doc1[i].track.name].numpts
    {
      var name := doc1[i].track.name;
      assert IsTrackNamed(doc1, i, name);
      assert index1[name].ref.i == i;
    }
  }

  /** A file2 track of a name not indexed yet enters as a record. */
  lemma StepSoundNew(doc1: Doc, doc2: Doc, j: nat, s: State)
    requires j < |doc2| && doc2[j].Trk? && doc2[j].track.name !in s.index
    requires Sound(doc1, doc2, j, s)
    ensures Sound(doc1, doc2, j + 1, MergeStep(doc2, s, j).value)
  {
    var t := doc2[j].track;
    var s' := MergeStep(doc2, s, j).value;
    assert Record(doc1, doc2, j);
    forall name | name in s'.index
      ensures SoundEntry(doc1, doc2, j + 1, s'.nodes, name, s'.index[name])
    {
      if name != t.name && s.index[name].ref.Orig1? {
        var k :| 0 <= k < |s.nodes| && s.nodes[k].ref == s.index[name].ref;
        assert s'.nodes[k] == s.nodes[k];
      }
    }
  }

  /** A file2 track with more points than its name's entry is a record:
      the entry has at least the points of every track of that name seen. */
  lemma ReplaceIsRecord(doc1: Doc, doc2: Doc, j: nat, s: State)
    requires j < |doc2| && doc2[j].Trk? && doc2[j].track.name in s.index
    requires doc2[j].track.numpts > s.index[doc2[j].track.name].numpts
    requires Sound(doc1, doc2, j, s)
    ensures Record(doc1, doc2, j)
  {
  }

  /** Removing the element of one name's entry keeps the file1 elements of
      the other names' entries present. */
  lemma OthersStayPresent(doc1: Doc, nodes: seq<Node>, index: Index, name0: string, rest: seq<Node>, x: Node)
    requires forall name :: name in index && index[name].ref.Orig1? ==>
               IsTrackNamed(doc1, index[name].ref.i, name) && Present(nodes, index[name].ref)
    requires name0 in index && RemoveNode(nodes, index[name0].ref) == Some(rest)
    requires index[name0].ref.Orig1? ==> IsTrackNamed(doc1, index[name0].ref.i, name0)
    ensures forall name :: name in index && name != name0 && index[name].ref.Orig1? ==>
              Present(rest + [x], index[name].ref)
  {
    forall name | name in index && name != name0 && index[name].ref.Orig1?
      ensures Present(rest + [x], index[name].ref)
    {
      var r := index[name].ref;
      RemoveKeepsOthers(nodes, index[name0].ref, rest, r);
      var k :| 0 <= k < |rest| && rest[k].ref == r;
      assert (rest + [x])[k] == rest[k];
    }
  }

  /** A file2 track with more points than its name's entry removes the
      entry's element, which is present when it is file1's, and enters as a
      record. */
  lemma StepSoundReplace(doc1: Doc, doc2: Doc, j: nat, s: State)
    requires j < |doc2| && doc2[j].Trk? && doc2[j].track.name in s.index
    requires doc2[j].track.numpts > s.index[doc2[j].track.name].numpts
    requires Sound(doc1, doc2, j, s)
    requires MergeStep(doc2, s, j).Ok?
    ensures Sound(doc1, doc2, j + 1, MergeStep(doc2, s, j).value)
  {
    var t := doc2[j].track;
    var e := s.index[t.name];
    var rest := RemoveNode(s.nodes, e.ref).value;
    var x := Node(Copy2(j), doc2[j]);
    var s' := MergeStep(doc2, s, j).value;
    assert s'.nodes == rest + [x];
    assert s'.index == s.index[t.name := Entry(t.numpts, Elem2(j))];
    ReplaceIsRecord(doc1, doc2, j, s);
    assert SoundEntry(doc1, doc2, j, s.nodes, t.name, e);
    forall name | name in s.index && s.index[name].ref.Orig1?
      ensures IsTrackNamed(doc1, s.index[name].ref.i, name) && Present(s.nodes, s.index[name].ref)
    {
      assert SoundEntry(doc1, doc2, j, s.nodes, name, s.index[name]);
    }
    OthersStayPresent(doc1, s.nodes, s.index, t.name, rest, x);
    forall name | name in s'.index
      ensures SoundEntry(doc1, doc2, j + 1, s'.nodes, name, s'.index[name])
    {
      if name != t.name {
        assert SoundEntry(doc1, doc2, j, s.nodes, name, s.index[name]);
      }
    }
  }

  /** Visiting file2's child `j` keeps the invariant. */
  lemma StepSound(doc1: Doc, doc2: Doc, j: nat, s: State)
    requires j < |doc2|
    requires Sound(doc1, doc2, j, s)
    requires MergeStep(doc2, s, j).Ok?
    ensures Sound(doc1, doc2, j + 1, MergeStep(doc2, s, j).value)
  {
    if doc2[j].Trk? {
      var t := doc2[j].track;
      if t.name !in s.index {
        StepSoundNew(doc1, doc2, j, s);
      } else if t.numpts > s.index[t.name].numpts {
        StepSoundReplace(doc1, doc2, j, s);
      }
    }
  }

  lemma {:induction false} ScanSound(doc1: Doc, doc2: Doc, index1: Index, j: nat)
    requires DistinctNames(doc1)
    requires IndexDescribes(doc1, |doc1|, index1)
    requires j <= |doc2|
    ensures MergeScan(doc1, doc2, index1, j).Ok? ==> Sound(doc1, doc2, j, MergeScan(doc1, doc2, index1, j).value)
  {
    if j == 0 {
      SoundAtStart(doc1, doc2, index1);
    } else {
      ScanSound(doc1, doc2, index1, j - 1);
      ScanErrPropagates(doc1, doc2, index1, j - 1, j);
      var r := MergeScan(doc1, doc2, index1, j - 1);
      if r.Ok? {
        assert MergeScan(doc1, doc2, index1, j) == MergeStep(doc2, r.value, j - 1);
        if MergeStep(doc2, r.value, j - 1).Ok? {
          StepSound(doc1, doc2, j - 1, r.value);
        }
      }
    }
  }

  /** A failing visit is a track with more points than a file2 record of
      its name: file1's element would still be present. */
  lemma FailureBreaksRecord(doc1: Doc, doc2: Doc, j: nat, s: State)
    requires j < |doc2|
    requires Sound(doc1, doc2, j, s)
    requires MergeStep(doc2, s, j).Err?
    ensures exists a :: 0 <= a < j && Record(doc1, doc2, a) && IsTrackNamed(doc2, j, doc2[a].track.name)
                        && doc2[j].track.numpts > doc2[a].track.numpts
  {
    var t := doc2[j].track;
    var e := s.index[t.name];
    assert SoundEntry(doc1, doc2, j, s.nodes, t.name, e);
    if Present(s.nodes, e.ref) {
      RemovePresent(s.nodes, e.ref);
    }
    var a := e.ref.j;
    assert IsTrackNamed(doc2, j, doc2[a].track.name);
  }

  /** A record that the scan reaches is indexed by its own element. */
  lemma RecordEnters(doc1: Doc, doc2: Doc, a: nat, s: State)
    requires Record(doc1, doc2, a)
    requires Sound(doc1, doc2, a, s)
    requires MergeStep(doc2, s, a).Ok?
    ensures doc2[a].track.name in MergeStep(doc2, s, a).value.index
    ensures MergeStep(doc2, s, a).value.index[doc2[a].track.name] == Entry(doc2[a].track.numpts, Elem2(a))
    ensures var ns := MergeStep(doc2, s, a).value.nodes; |ns| > 0 && ns[|ns| - 1] == Node(Copy2(a), doc2[a])
  {
  }

  /** A failed scan has a first failing visit. */
  lemma {:induction false} FirstFailure(doc1: Doc, doc2: Doc, index1: Index, n: nat)
    requires n <= |doc2|
    requires MergeScan(doc1, doc2, index1, n).Err?
    ensures exists j :: 0 <= j < n && MergeScan(doc1, doc2, index1, j).Ok?
                        && MergeStep(doc2, MergeScan(doc1, doc2, index1, j).value, j).Err?
  {
    if MergeScan(doc1, doc2, index1, n - 1).Err? {
      FirstFailure(doc1, doc2, index1, n - 1);
    } else {
      assert MergeScan(doc1, doc2, index1, n - 1).Ok?;
    }
  }

  /** When file1 has no repeated name, the merge fails exactly when some
      record of file2 is followed by a track of its name with more points. */
  lemma FileTwoFailsIffRecordBroken(doc1: Doc, doc2: Doc)
    requires DistinctNames(doc1)
    ensures MergeDocs(doc1, doc2).Err? <==> RecordBroken(doc1, doc2)
  {
    IndexFile1Describes(doc1, |doc1|);
    var index1 := IndexFile1(doc1, |doc1|).value;
    if MergeDocs(doc1, doc2).Err? {
      FirstFailure(doc1, doc2, index1, |doc2|);
      var j :| 0 <= j < |doc2| && MergeScan(doc1, doc2, index1, j).Ok?
               && MergeStep(doc2, MergeScan(doc1, doc2, index1, j).value, j).Err?;
      ScanSound(doc1, doc2, index1, j);
      FailureBreaksRecord(doc1, doc2, j, MergeScan(doc1, doc2, index1, j).value);
    }
    if RecordBroken(doc1, doc2) {
      var a, b :| 0 <= a < b < |doc2| && Record(doc1, doc2, a) && IsTrackNamed(doc2, b, doc2[a].track.name)
                  && doc2[b].track.numpts > doc2[a].track.numpts;
      ScanErrPropagates(doc1, doc2, index1, a + 1, |doc2|);
      var r := MergeScan(doc1, doc2, index1, a);
      if r.Ok? && MergeStep(doc2, r.value, a).Ok? {
        ScanSound(doc1, doc2, index1, a);
        RecordEnters(doc1, doc2, a, r.value);
        assert Entered(doc1, doc2, index1, a);
        EnteredThenGrowingFails(doc1, doc2, a, b);
      }
    }
  }

  /** The merge fails on a removal exactly when file1 repeats no name and
      some record of file2 is followed by a track of its name with more
      points. With `UndefinedIffFile1Repeats` this says exactly when the
      merge fails. */
  lemma NotAChildIffRecordBroken(doc1: Doc, doc2: Doc)
    ensures (MergeDocs(doc1, doc2).Err? && MergeDocs(doc1, doc2).error.NotAChild?)
            <==> DistinctNames(doc1) && RecordBroken(doc1, doc2)
  {
    if !DistinctNames(doc1) {
      RepeatedNameInFile1Fails(doc1, doc2);
    } else {
      FileTwoFailsIffRecordBroken(doc1, doc2);
      IndexFile1Describes(doc1, |doc1|);
      ScanOnlyNotAChild(doc1, doc2, IndexFile1(doc1, |doc1|).value, |doc2|);
    }
  }

  /** A repeat with fewer points is harmless: `a`(5 points), then `a`(3
      points), merged into an empty file, appends the first and skips the
      second. */
  lemma ShrinkingRepeatSucceeds()
    ensures var day := Date(2014, 6, 1);
            var big := Trk(Track("a", day, 1401606000, 5));
            MergeDocs([], [big, Trk(Track("a", day, 1401609600, 3))]) == Ok(Merged([big], true))
  {
    var day := Date(2014, 6, 1);
    var big := Trk(Track("a", day, 1401606000, 5));
    var doc2 := [big, Trk(Track("a", day, 1401609600, 3))];
    var s0 := State([], map[], false);
    var s1 := State([Node(Copy2(0), big)], map["a" := Entry(5, Elem2(0))], true);
    assert IndexFile1([], 0) == Ok(map[]);
    assert Nodes1([]) == [];
    assert MergeScan([], doc2, map[], 0) == Ok(s0);
    assert s0.nodes + [Node(Copy2(0), big)] == s1.nodes;
    assert MergeStep(doc2, s0, 0) == Ok(s1);
    assert MergeScan([], doc2, map[], 2) == Ok(s1);
    assert Children(s1.nodes) == [big];
  }
}

=== FILE: merge_laws.dfy ===
/** Properties of the merge's reference definition: the result keeps one
    track per name, the one with the most points, drops no name, and equals
    file1 exactly when nothing is to be written. */
module MergeLaws {
  import opened Gpx
  import opened Merge
  import opened MergeCorrectness
  import opened MergeFailures

  // ---------------------------------------------------------------------------
  // Membership

  lemma {:induction false} KeptOfMembers(doc1: Doc, doc2: Doc, n: nat)
    requires n <= |doc1|
    ensures forall c :: c in KeptOf(doc1, doc2, n) <==>
              exists i :: 0 <= i < n && doc1[i] == c && Survives(c, doc2)
  {
    if n > 0 {
      KeptOfMembers(doc1, doc2, n - 1);
      forall c
        ensures c in KeptOf(doc1, doc2, n) <==> exists i :: 0 <= i < n && doc1[i] == c && Survives(c, doc2)
      {
        if exists i :: 0 <= i < n && doc1[i] == c && Survives(c, doc2) {
          var i :| 0 <= i < n && doc1[i] == c && Survives(c, doc2);
          if i < n - 1 {
            assert c in KeptOf(doc1, doc2, n - 1);
          }
        }
      }
    }
  }

  lemma {:induction false} GainedOfMembers(doc1: Doc, doc2: Doc, n: nat)
    requires n <= |doc2|
    ensures forall c :: c in GainedOf(doc1, doc2, n) <==>
              exists j :: 0 <= j < n && doc2[j] == c && Gains(c, doc1)
  {
    if n > 0 {
      GainedOfMembers(doc1, doc2, n - 1);
      forall c
        ensures c in GainedOf(doc1, doc2, n) <==> exists j :: 0 <= j < n && doc2[j] == c && Gains(c, doc1)
      {
        if exists j :: 0 <= j < n && doc2[j] == c && Gains(c, doc1) {
          var j :| 0 <= j < n && doc2[j] == c && Gains(c, doc1);
          if j < n - 1 {
            assert c in GainedOf(doc1, doc2, n - 1);
          }
        }
      }
    }
  }

  /** A child is in the merge result exactly when it is a child of file1
      that no file2 track outdoes or a file2 track that beats file1. */
  lemma MergeSpecMembers(doc1: Doc, doc2: Doc)
    ensures forall c :: c in MergeSpec(doc1, doc2) <==>
              (exists i :: 0 <= i < |doc1| && doc1[i] == c && Survives(c, doc2)) ||
              (exists j :: 0 <= j < |doc2| && doc2[j] == c && Gains(c, doc1))
  {
    KeptOfMembers(doc1, doc2, |doc1|);
    GainedOfMembers(doc1, doc2, |doc2|);
  }

  // ---------------------------------------------------------------------------
  // One track per name

  /** Names of the tracks in `a` differ from that of `x`. */
  predicate NameFree(a: Doc, x: Child)
  {
    x.Trk? ==> forall c :: c in a && c.Trk? ==> c.track.name != x.track.name
  }

  lemma DistinctAppend(a: Doc, x: Child)
    requires DistinctNames(a) && NameFree(a, x)
    ensures DistinctNames(a + [x])
  {
    var r := a + [x];
    forall i, j | 0 <= i < j < |r| && r[i].Trk? && r[j].Trk?
      ensures r[i].track.name != r[j].track.name
    {
      if j == |a| {
        assert r[i] in a;
      }
    }
  }

  lemma DistinctConcat(a: Doc, b: Doc)
    requires DistinctNames(a) && DistinctNames(b)
    requires forall c, e :: c in a && e in b && c.Trk? && e.Trk? ==> c.track.name != e.track.name
    ensures DistinctNames(a + b)
  {
    var r := a + b;
    forall i, j | 0 <= i < j < |r| && r[i].Trk? && r[j].Trk?
      ensures r[i].track.name != r[j].track.name
    {
      if i < |a| && |a| <= j {
        assert r[i] in a;
        assert r[j] == b[j - |a|];
        assert r[j] in b;
      } else if |a| <= i {
        assert r[i] == b[i - |a|] && r[j] == b[j - |a|];
      }
    }
  }

  /** File1's child `m` shares no name with the kept children before it. */
  lemma KeptBeforeFree(doc1: Doc, doc2: Doc, m: nat)
    requires m < |doc1| && DistinctNames(doc1)
    ensures NameFree(KeptOf(doc1, doc2, m), doc1[m])
  {
    KeptOfMembers(doc1, doc2, m);
    var x := doc1[m];
    forall c | c in KeptOf(doc1, doc2, m) && c.Trk? && x.Trk?
      ensures c.track.name != x.track.name
    {
      var i :| 0 <= i < m && doc1[i] == c && Survives(c, doc2);
    }
  }

  lemma {:induction false} KeptOfDistinct(doc1: Doc, doc2: Doc, n: nat)
    requires n <= |doc1| && DistinctNames(doc1)
    ensures DistinctNames(KeptOf(doc1, doc2, n))
  {
    if n > 0 {
      KeptOfDistinct(doc1, doc2, n - 1);
      var a := KeptOf(doc1, doc2, n - 1);
      var x := doc1[n - 1];
      KeptBeforeFree(doc1, doc2, n - 1);
      if Survives(x, doc2) {
        DistinctAppend(a, x);
        assert KeptOf(doc1, doc2, n) == a + [x];
      } else {
        assert KeptOf(doc1, doc2, n) == a;
      }
    }
  }

  /** File2's child `m` shares no name with the gained tracks before it. */
  lemma GainedBeforeFree(doc1: Doc, doc2: Doc, m: nat)
    requires m < |doc2| && DistinctNames(doc2)
    ensures NameFree(GainedOf(doc1, doc2, m), doc2[m])
  {
    GainedOfMembers(doc1, doc2, m);
    var x := doc2[m];
    forall c | c in GainedOf(doc1, doc2, m) && c.Trk? && x.Trk?
      ensures c.track.name != x.track.name
    {
      var j :| 0 <= j < m && doc2[j] == c && Gains(c, doc1);
    }
  }

  lemma {:induction false} GainedOfDistinct(doc1: Doc, doc2: Doc, n: nat)
    requires n <= |doc2| && DistinctNames(doc2)
    ensures DistinctNames(GainedOf(doc1, doc2, n))
  {
    if n > 0 {
      GainedOfDistinct(doc1, doc2, n - 1);
      var a := GainedOf(doc1, doc2, n - 1);
      var x := doc2[n - 1];
      GainedBeforeFree(doc1, doc2, n - 1);
      if Gains(x, doc1) {
        DistinctAppend(a, x);
        assert GainedOf(doc1, doc2, n) == a + [x];
      } else {
        assert GainedOf(doc1, doc2, n) == a;
      }
    }
  }

  /** A kept child of file1 and a gained track of file2 never share a name:
      the gained track would outdo the kept one. */
  lemma KeptAndGainedApart(doc1: Doc, doc2: Doc, c: Child, e: Child)
    requires c in KeptOf(doc1, doc2, |doc1|) && e in GainedOf(doc1, doc2, |doc2|)
    requires c.Trk? && e.Trk?
    ensures c.track.name != e.track.name
  {
    KeptOfMembers(doc1, doc2, |doc1|);
    GainedOfMembers(doc1, doc2, |doc2|);
    var i :| 0 <= i < |doc1| && doc1[i] == c && Survives(c, doc2);
    var j :| 0 <= j < |doc2| && doc2[j] == e && Gains(e, doc1);
    if c.track.name == e.track.name {
      assert IsTrackNamed(doc1, i, e.track.name);
      assert IsTrackNamed(doc2, j, c.track.name);
    }
  }

  /** Merging two files without repeated names gives a file without
      repeated names. */
  lemma MergeSpecDistinct(doc1: Doc, doc2: Doc)
    requires DistinctNames(doc1) && DistinctNames(doc2)
    ensures DistinctNames(MergeSpec(doc1, doc2))
  {
    KeptOfDistinct(doc1, doc2, |doc1|);
    GainedOfDistinct(doc1, doc2, |doc2|);
    forall c, e | c in KeptOf(doc1, doc2, |doc1|) && e in GainedOf(doc1, doc2, |doc2|) && c.Trk? && e.Trk?
      ensures c.track.name != e.track.name
    {
      KeptAndGainedApart(doc1, doc2, c, e);
    }
    DistinctConcat(KeptOf(doc1, doc2, |doc1|), GainedOf(doc1, doc2, |doc2|));
  }

  // ---------------------------------------------------------------------------
  // The most points win, and no name is lost

  /** Every track of the result has at least as many points as every track
      of the same name in either file. */
  lemma MergeSpecKeepsMost(doc1: Doc, doc2: Doc, c: Child)
    requires DistinctNames(doc1) && DistinctNames(doc2)
    requires c in MergeSpec(doc1, doc2) && c.Trk?
    ensures forall i :: IsTrackNamed(doc1, i, c.track.name) ==> doc1[i].track.numpts <= c.track.numpts
    ensures forall j :: IsTrackNamed(doc2, j, c.track.name) ==> doc2[j].track.numpts <= c.track.numpts
  {
    MergeSpecMembers(doc1, doc2);
    var name := c.track.name;
    if exists i :: 0 <= i < |doc1| && doc1[i] == c && Survives(c, doc2) {
      var i0 :| 0 <= i0 < |doc1| && doc1[i0] == c && Survives(c, doc2);
      forall i | IsTrackNamed(doc1, i, name)
        ensures doc1[i].track.numpts <= c.track.numpts
      {
        assert i == i0;
      }
      forall j | IsTrackNamed(doc2, j, name)
        ensures doc2[j].track.numpts <= c.track.numpts
      {
        assert !(IsTrackNamed(doc2, j, name) && doc2[j].track.numpts > c.track.numpts);
      }
    } else {
      var j0 :| 0 <= j0 < |doc2| && doc2[j0] == c && Gains(c, doc1);
      forall j | IsTrackNamed(doc2, j, name)
        ensures doc2[j].track.numpts <= c.track.numpts
      {
        assert j == j0;
      }
    }
  }

  /** Where a track of file1 ends up: in place when no file2 track outdoes
      it, otherwise the outdoing file2 track is in the result. */
  lemma File1NameKept(doc1: Doc, doc2: Doc, i: nat)
    requires DistinctNames(doc1) && DistinctNames(doc2)
    requires i < |doc1| && doc1[i].Trk?
    ensures HasTrack(MergeSpec(doc1, doc2), doc1[i].track.name)
  {
    MergeSpecMembers(doc1, doc2);
    var r := MergeSpec(doc1, doc2);
    var name := doc1[i].track.name;
    var c: Child;
    if Survives(doc1[i], doc2) {
      c := doc1[i];
    } else {
      var j :| 0 <= j < |doc2| && IsTrackNamed(doc2, j, name) && doc2[j].track.numpts > doc1[i].track.numpts;
      forall i' | 0 <= i' < |doc1| && IsTrackNamed(doc1, i', name)
        ensures doc1[i'].track.numpts < doc2[j].track.numpts
      {
        assert i' == i;
      }
      assert Gains(doc2[j], doc1);
      c := doc2[j];
    }
    assert c in r && c.Trk? && c.track.name == name;
    var k :| 0 <= k < |r| && r[k] == c;
    assert IsTrackNamed(r, k, name);
  }

  lemma File2NameKept(doc1: Doc, doc2: Doc, j: nat)
    requires DistinctNames(doc1) && DistinctNames(doc2)
    requires j < |doc2| && doc2[j].Trk?
    ensures HasTrack(MergeSpec(doc1, doc2), doc2[j].track.name)
  {
    MergeSpecMembers(doc1, doc2);
    var r := MergeSpec(doc1, doc2);
    var name := doc2[j].track.name;
    var c: Child;
    if Gains(doc2[j], doc1) {
      c := doc2[j];
    } else {
      var i :| 0 <= i < |doc1| && IsTrackNamed(doc1, i, name) && doc1[i].track.numpts >= doc2[j].track.numpts;
      forall j' | 0 <= j' < |doc2| && IsTrackNamed(doc2, j', name)
        ensures doc2[j'].track.numpts <= doc1[i].track.numpts
      {
        assert j' == j;
      }
      assert Survives(doc1[i], doc2);
      c := doc1[i];
    }
    assert c in r && c.Trk? && c.track.name == name;
    var k :| 0 <= k < |r| && r[k] == c;
    assert IsTrackNamed(r, k, name);
  }

  /** The result has a track of a name exactly when one of the files has. */
  lemma MergeSpecNames(doc1: Doc, doc2: Doc, name: string)
    requires DistinctNames(doc1) && DistinctNames(doc2)
    ensures HasTrack(MergeSpec(doc1, doc2), name) <==> HasTrack(doc1, name) || HasTrack(doc2, name)
  {
    MergeSpecMembers(doc1, doc2);
    var r := MergeSpec(doc1, doc2);
    if HasTrack(r, name) {
      var k :| 0 <= k < |r| && IsTrackNamed(r, k, name);
      assert r[k] in r;
      if exists i :: 0 <= i < |doc1| && doc1[i] == r[k] && Survives(r[k], doc2) {
        var i :| 0 <= i < |doc1| && doc1[i] == r[k] && Survives(r[k], doc2);
        assert IsTrackNamed(doc1, i, name);
      } else {
        var j :| 0 <= j < |doc2| && doc2[j] == r[k] && Gains(r[k], doc1);
        assert IsTrackNamed(doc2, j, name);
      }
    }
    if HasTrack(doc1, name) {
      var i :| 0 <= i < |doc1| && IsTrackNamed(doc1, i, name);
      File1NameKept(doc1, doc2, i);
    }
    if HasTrack(doc2, name) {
      var j :| 0 <= j < |doc2| && IsTrackNamed(doc2, j, name);
      File2NameKept(doc1, doc2, j);
    }
  }

  // ---------------------------------------------------------------------------
  // When nothing is written

  lemma {:induction false} KeptOfAll(doc1: Doc, doc2: Doc, n: nat)
    requires n <= |doc1|
    requires forall i :: 0 <= i < n ==> Survives(doc1[i], doc2)
    ensures KeptOf(doc1, doc2, n) == doc1[..n]
  {
    if n > 0 {
      KeptOfAll(doc1, doc2, n - 1);
      assert doc1[..n] == doc1[..n - 1] + [doc1[n - 1]];
    }
  }

  lemma {:induction false} GainedOfNone(doc1: Doc, doc2: Doc, n: nat)
    requires n <= |doc2|
    requires forall j :: 0 <= j < n ==> !Gains(doc2[j], doc1)
    ensures GainedOf(doc1, doc2, n) == []
  {
    if n > 0 {
      GainedOfNone(doc1, doc2, n - 1);
    }
  }

  /** A file2 track that outdoes a track of file1 beats file1. */
  lemma OutdoneMeansModified(doc1: Doc, doc2: Doc, i: nat)
    requires DistinctNames(doc1) && i < |doc1|
    ensures !Survives(doc1[i], doc2) ==> ModifiedSpec(doc1, doc2)
  {
    if !Survives(doc1[i], doc2) {
      var name := doc1[i].track.name;
      var j :| 0 <= j < |doc2| && IsTrackNamed(doc2, j, name) && doc2[j].track.numpts > doc1[i].track.numpts;
      forall i' | 0 <= i' < |doc1| && IsTrackNamed(doc1, i', name)
        ensures doc1[i'].track.numpts < doc2[j].track.numpts
      {
        assert i' == i;
      }
      assert Gains(doc2[j], doc1);
    }
  }

  /** A gained track is not a child of file1: file1's track of that name,
      if any, has fewer points. */
  lemma GainedIsNew(doc1: Doc, doc2: Doc, j: nat)
    requires j < |doc2| && Gains(doc2[j], doc1)
    ensures doc2[j] !in doc1
  {
    var t := doc2[j].track;
    forall i | 0 <= i < |doc1|
      ensures doc1[i] != doc2[j]
    {
      if doc1[i].Trk? && doc1[i].track.name == t.name {
        assert IsTrackNamed(doc1, i, t.name);
      }
    }
  }

  /** File1's content is to be rewritten exactly when the merge changes it:
      the result equals file1 if and only if no file2 track beats file1. */
  lemma UnmodifiedIffUnchanged(doc1: Doc, doc2: Doc)
    requires DistinctNames(doc1)
    ensures MergeSpec(doc1, doc2) == doc1 <==> !ModifiedSpec(doc1, doc2)
  {
    if ModifiedSpec(doc1, doc2) {
      var j :| 0 <= j < |doc2| && Gains(doc2[j], doc1);
      GainedIsNew(doc1, doc2, j);
      MergeSpecMembers(doc1, doc2);
      assert doc2[j] in MergeSpec(doc1, doc2);
    } else {
      forall i | 0 <= i < |doc1|
        ensures Survives(doc1[i], doc2)
      {
        OutdoneMeansModified(doc1, doc2, i);
      }
      KeptOfAll(doc1, doc2, |doc1|);
      GainedOfNone(doc1, doc2, |doc2|);
      assert doc1[..|doc1|] == doc1;
    }
  }

  /** Merging a file into itself changes nothing. */
  lemma SelfMergeIsIdentity(doc: Doc)
    requires DistinctNames(doc)
    ensures MergeDocs(doc, doc) == Ok(Merged(doc, false))
  {
    forall j | 0 <= j < |doc|
      ensures !Gains(doc[j], doc)
    {
      if doc[j].Trk? {
        assert IsTrackNamed(doc, j, doc[j].track.name);
      }
    }
    UnmodifiedIffUnchanged(doc, doc);
    MergeMatchesSpec(doc, doc);
  }

  /** Merging the same file2 a second time changes nothing. */
  lemma MergeAgainIsIdentity(doc1: Doc, doc2: Doc)
    requires DistinctNames(doc1) && DistinctNames(doc2)
    ensures MergeDocs(MergeSpec(doc1, doc2), doc2) == Ok(Merged(MergeSpec(doc1, doc2), false))
  {
    var r := MergeSpec(doc1, doc2);
    MergeSpecDistinct(doc1, doc2);
    forall j | 0 <= j < |doc2|
      ensures !Gains(doc2[j], r)
    {
      if doc2[j].Trk? {
        var name := doc2[j].track.name;
        File2NameKept(doc1, doc2, j);
        var k :| 0 <= k < |r| && IsTrackNamed(r, k, name);
        assert r[k] in r;
        MergeSpecKeepsMost(doc1, doc2, r[k]);
        assert IsTrackNamed(doc2, j, name);
      }
    }
    UnmodifiedIffUnchanged(r, doc2);
    MergeMatchesSpec(r, doc2);
  }

  // ---------------------------------------------------------------------------
  // On the file system

  /** Merging two files without repeated names leaves file1 holding the
      reference merge, removes file2 and touches no other file; when a file
      is missing nothing changes. */
  lemma MergeFilesSpec(fs: FileSystem, file1: string, file2: string)
    requires file1 in fs && file2 in fs ==> DistinctNames(fs[file1]) && DistinctNames(fs[file2])
    ensures MergeFiles(fs, file1, file2).Ok?
    ensures file1 !in fs || file2 !in fs ==> MergeFiles(fs, file1, file2).value == fs
    ensures file1 in fs && file2 in fs ==>
              MergeFiles(fs, file1, file2).value == fs[file1 := MergeSpec(fs[file1], fs[file2])] - {file2}
  {
    if file1 in fs && file2 in fs {
      MergeMatchesSpec(fs[file1], fs[file2]);
      UnmodifiedIffUnchanged(fs[file1], fs[file2]);
      if !ModifiedSpec(fs[file1], fs[file2]) {
        assert fs[file1 := fs[file1]] == fs;
      }
    }
  }

  /** When file2 has no repeated name, merging fails exactly when file1 has
      one, and then on the undefined name. */
  lemma MergeFilesFailsIffFile1Repeats(fs: FileSystem, file1: string, file2: string)
    requires file1 in fs && file2 in fs && DistinctNames(fs[file2])
    ensures MergeFiles(fs, file1, file2).Ok? <==> DistinctNames(fs[file1])
    ensures MergeFiles(fs, file1, file2).Err? ==> MergeFiles(fs, file1, file2).error.UndefinedTracks?
  {
    UndefinedIffFile1Repeats(fs[file1], fs[file2]);
    if DistinctNames(fs[file1]) {
      MergeFilesSpec(fs, file1, file2);
    }
  }
}

=== FILE: merge_proofs.dfy ===
/** The merge as performed agrees with its reference definition whenever
    neither file repeats a track name. */
module MergeCorrectness {
  import opened Gpx
  import opened Merge

  // ---------------------------------------------------------------------------
  // Indexing file1

  /** Some track among the first `n` children of `doc` is called `name`. */
  predicate NamedIn(doc: Doc, n: nat, name: string)
  {
    exists k :: 0 <= k < n && IsTrackNamed(doc, k, name)
  }

  /** `index` maps exactly the track names among file1's first `n` children,
      each to that track's point count and element. */
  ghost predicate IndexDescribes(doc1: Doc, n: nat, index: Index)
  {
    && (forall name :: name in index <==> NamedIn(doc1, n, name))
    && (forall name :: name in index ==>
          && index[name].ref.Orig1?
          && index[name].ref.i < n
          && IsTrackNamed(doc1, index[name].ref.i, name)
          && index[name].numpts == doc1[index[name].ref.i].track.numpts)
  }

  lemma {:induction false} IndexFile1Describes(doc1: Doc, n: nat)
    requires n <= |doc1|
    requires DistinctNames(doc1)
    ensures IndexFile1(doc1, n).Ok?
    ensures IndexDescribes(doc1, n, IndexFile1(doc1, n).value)
  {
    if n > 0 {
      IndexFile1Describes(doc1, n - 1);
      var index := IndexFile1(doc1, n - 1).value;
      match doc1[n - 1]
      case Other =>
        forall name | NamedIn(doc1, n, name)
          ensures NamedIn(doc1, n - 1, name)
        {
          var k :| 0 <= k < n && IsTrackNamed(doc1, k, name);
        }
      case Trk(t) =>
        var index' := index[t.name := Entry(t.numpts, Orig1(n - 1))];
        forall name
          ensures name in index' <==> NamedIn(doc1, n, name)
        {
          if name == t.name {
            assert IsTrackNamed(doc1, n - 1, name);
          } else if NamedIn(doc1, n, name) {
            var k :| 0 <= k < n && IsTrackNamed(doc1, k, name);
            assert k < n - 1;
          }
        }
    }
  }

  /** Track names among file1's first `n` children are all indexed. */
  lemma {:induction false} IndexFile1HasNames(doc1: Doc, n: nat, k: nat)
    requires k < n <= |doc1|
    requires doc1[k].Trk?
    requires IndexFile1(doc1, n).Ok?
    ensures doc1[k].track.name in IndexFile1(doc1, n).value
  {
    if k < n - 1 {
      IndexFile1HasNames(doc1, n - 1, k);
    }
  }

  /** A file1 that repeats a track name makes indexing fail once the repeat
      is reached: the fallback branch reads the undefined `tracks`. */
  lemma {:induction false} IndexFile1FailsOnRepeat(doc1: Doc, n: nat, a: nat, b: nat)
    requires a < b < n <= |doc1|
    requires doc1[a].Trk? && IsTrackNamed(doc1, b, doc1[a].track.name)
    ensures IndexFile1(doc1, n).Err? && IndexFile1(doc1, n).error.UndefinedTracks?
  {
    if n - 1 > b {
      IndexFile1FailsOnRepeat(doc1, n - 1, a, b);
    } else if IndexFile1(doc1, n - 1).Ok? {
      IndexFile1HasNames(doc1, n - 1, a);
    } else {
      IndexFile1OnlyUndefined(doc1, n - 1);
    }
  }

  /** Indexing file1 can only fail on a repeated name. */
  lemma {:induction false} IndexFile1OnlyUndefined(doc1: Doc, n: nat)
    requires n <= |doc1|
    ensures IndexFile1(doc1, n).Err? ==> IndexFile1(doc1, n).error.UndefinedTracks?
  {
    if n > 0 {
      IndexFile1OnlyUndefined(doc1, n - 1);
    }
  }

  // ---------------------------------------------------------------------------
  // File1's children with identities, and the appended copies

  /** File1's first `n` children that survive `doc2`, with identities. */
  function KeptNodes(doc1: Doc, doc2: Doc, n: nat): (nodes: seq<Node>)
    requires n <= |doc1|
    ensures forall k :: 0 <= k < |nodes| ==> nodes[k].ref.Orig1? && nodes[k].ref.i < n
  {
    if n == 0 then []
    else KeptNodes(doc1, doc2, n - 1)
         + (if Survives(doc1[n - 1], doc2) then [Node(Orig1(n - 1), doc1[n - 1])] else [])
  }

  /** The copies of file2's first `n` children that beat file1. */
  function GainedNodes(doc1: Doc, doc2: Doc, n: nat): (nodes: seq<Node>)
    requires n <= |doc2|
    ensures forall k :: 0 <= k < |nodes| ==> nodes[k].ref.Copy2?
  {
    if n == 0 then []
    else GainedNodes(doc1, doc2, n - 1)
         + (if Gains(doc2[n - 1], doc1) then [Node(Copy2(n - 1), doc2[n - 1])] else [])
  }

  lemma ChildrenAppend(a: seq<Node>, b: seq<Node>)
    ensures Children(a + b) == Children(a) + Children(b)
  {
  }

  lemma {:induction false} ChildrenOfKept(doc1: Doc, doc2: Doc, n: nat)
    requires n <= |doc1|
    ensures Children(KeptNodes(doc1, doc2, n)) == KeptOf(doc1, doc2, n)
  {
    if n > 0 {
      ChildrenOfKept(doc1, doc2, n - 1);
      ChildrenAppend(KeptNodes(doc1, doc2, n - 1),
                     if Survives(doc1[n - 1], doc2) then [Node(Orig1(n - 1), doc1[n - 1])] else []);
    }
  }

  lemma {:induction false} ChildrenOfGained(doc1: Doc, doc2: Doc, n: nat)
    requires n <= |doc2|
    ensures Children(GainedNodes(doc1, doc2, n)) == GainedOf(doc1, doc2, n)
  {
    if n > 0 {
      ChildrenOfGained(doc1, doc2, n - 1);
      ChildrenAppend(GainedNodes(doc1, doc2, n - 1),
                     if Gains(doc2[n - 1], doc1) then [Node(Copy2(n - 1), doc2[n - 1])] else []);
    }
  }

  /** Before any file2 child is visited, every file1 child is kept. */
  lemma {:induction false} NothingOutdoneYet(doc1: Doc, n: nat)
    requires n <= |doc1|
    ensures KeptNodes(doc1, [], n) == Nodes1(doc1)[..n]
  {
    if n > 0 {
      NothingOutdoneYet(doc1, n - 1);
      assert Nodes1(doc1)[..n] == Nodes1(doc1)[..n - 1] + [Nodes1(doc1)[n - 1]];
    }
  }

  /** Whether a track is outdone by the first `j + 1` children of file2. */
  lemma OutdoneExtend(t: Track, doc2: Doc, j: nat)
    requires j < |doc2|
    ensures Outdone(t, doc2[..j + 1]) <==>
            Outdone(t, doc2[..j]) || (doc2[j].Trk? && doc2[j].track.name == t.name && doc2[j].track.numpts > t.numpts)
  {
    var p := doc2[..j + 1];
    if Outdone(t, p) {
      var k :| 0 <= k < |p| && IsTrackNamed(p, k, t.name) && p[k].track.numpts > t.numpts;
      if k < j {
        assert IsTrackNamed(doc2[..j], k, t.name);
      }
    }
    if Outdone(t, doc2[..j]) {
      var k :| 0 <= k < j && IsTrackNamed(doc2[..j], k, t.name) && doc2[..j][k].track.numpts > t.numpts;
      assert IsTrackNamed(p, k, t.name);
    }
    if doc2[j].Trk? && doc2[j].track.name == t.name && doc2[j].track.numpts > t.numpts {
      assert IsTrackNamed(p, j, t.name);
    }
  }

  /** Visiting file2's child `j` leaves file1's first `n` children as they
      were when it outdoes none of them. */
  lemma {:induction false} KeptStable(doc1: Doc, doc2: Doc, j: nat, n: nat)
    requires j < |doc2| && n <= |doc1|
    requires doc2[j].Trk? ==>
      forall i :: 0 <= i < n && IsTrackNamed(doc1, i, doc2[j].track.name) ==>
        doc1[i].track.numpts >= doc2[j].track.numpts
    ensures KeptNodes(doc1, doc2[..j + 1], n) == KeptNodes(doc1, doc2[..j], n)
  {
    if n > 0 {
      KeptStable(doc1, doc2, j, n - 1);
      if doc1[n - 1].Trk? {
        OutdoneExtend(doc1[n - 1].track, doc2, j);
        if doc2[j].Trk? && doc2[j].track.name == doc1[n - 1].track.name {
          assert IsTrackNamed(doc1, n - 1, doc2[j].track.name);
        }
      }
    }
  }

  /** Removing an element that is among `a` and not among `b` from `a + b`. */
  lemma {:induction false} RemoveBeforeSuffix(a: seq<Node>, b: seq<Node>, r: Ref, a': seq<Node>)
    requires RemoveNode(a, r) == Some(a')
    requires forall k :: 0 <= k < |b| ==> b[k].ref != r
    ensures RemoveNode(a + b, r) == Some(a' + b)
  {
    if b == [] {
      assert a + b == a;
      assert a' + b == a';
    } else {
      var b0 := b[..|b| - 1];
      RemoveBeforeSuffix(a, b0, r, a');
      assert (a + b)[..|a + b| - 1] == a + b0;
      assert a' + b == (a' + b0) + [b[|b| - 1]];
    }
  }

  /** When file2's child `j` outdoes file1's track `p`, removing `p` from the
      kept children among file1's first `p + 1` gives those kept after
      visiting `j`. */
  lemma KeptRemoveLast(doc1: Doc, doc2: Doc, j: nat, p: nat)
    requires j < |doc2| && p < |doc1|
    requires DistinctNames(doc1)
    requires doc2[j].Trk? && IsTrackNamed(doc1, p, doc2[j].track.name)
    requires doc1[p].track.numpts < doc2[j].track.numpts
    requires !Outdone(doc1[p].track, doc2[..j])
    ensures RemoveNode(KeptNodes(doc1, doc2[..j], p + 1), Orig1(p)) == Some(KeptNodes(doc1, doc2[..j + 1], p + 1))
  {
    forall i | 0 <= i < p && doc1[i].Trk?
      ensures doc1[i].track.name != doc2[j].track.name
    {
    }
    KeptStable(doc1, doc2, j, p);
    OutdoneExtend(doc1[p].track, doc2, j);
    var before := KeptNodes(doc1, doc2[..j], p);
    assert Survives(doc1[p], doc2[..j]);
    assert !Survives(doc1[p], doc2[..j + 1]);
    assert KeptNodes(doc1, doc2[..j + 1], p + 1) == before;
    assert KeptNodes(doc1, doc2[..j], p + 1) == before + [Node(Orig1(p), doc1[p])];
    assert (before + [Node(Orig1(p), doc1[p])])[..|before|] == before;
  }

  /** The same for file1's first `n` children, for any `n` past `p`. */
  lemma {:induction false} KeptRemove(doc1: Doc, doc2: Doc, j: nat, p: nat, n: nat)
    requires j < |doc2| && p < n <= |doc1|
    requires DistinctNames(doc1)
    requires doc2[j].Trk? && IsTrackNamed(doc1, p, doc2[j].track.name)
    requires doc1[p].track.numpts < doc2[j].track.numpts
    requires !Outdone(doc1[p].track, doc2[..j])
    ensures RemoveNode(KeptNodes(doc1, doc2[..j], n), Orig1(p)) == Some(KeptNodes(doc1, doc2[..j + 1], n))
  {
    if n - 1 == p {
      KeptRemoveLast(doc1, doc2, j, p);
    } else {
      KeptRemove(doc1, doc2, j, p, n - 1);
      var c := doc1[n - 1];
      if c.Trk? {
        OutdoneExtend(c.track, doc2, j);
        assert c.track.name != doc2[j].track.name;
      }
      var x := if Survives(c, doc2[..j]) then [Node(Orig1(n - 1), c)] else [];
      RemoveBeforeSuffix(KeptNodes(doc1, doc2[..j], n - 1), x, Orig1(p), KeptNodes(doc1, doc2[..j + 1], n - 1));
    }
  }

  // ---------------------------------------------------------------------------
  // Visiting file2

  /** The index after visiting file2's first `j` children: every name seen
      in file2 so far is indexed, and other names keep file1's entries. */
  ghost predicate IndexAfter(doc2: Doc, index1: Index, j: nat, index: Index)
  {
    && (forall name :: NamedIn(doc2, j, name) ==> name in index)
    && (forall name :: !NamedIn(doc2, j, name) ==>
          && (name in index <==> name in index1)
          && (name in index1 ==> index[name] == index1[name]))
  }

  /** The state after visiting file2's first `j` children, when neither file
      repeats a name. */
  ghost predicate ScanDescribes(doc1: Doc, doc2: Doc, index1: Index, j: nat, s: State)
    requires j <= |doc2|
  {
    && s.nodes == KeptNodes(doc1, doc2[..j], |doc1|) + GainedNodes(doc1, doc2, j)
    && (s.modified <==> exists k :: 0 <= k < j && Gains(doc2[k], doc1))
    && IndexAfter(doc2, index1, j, s.index)
  }

  /** Visiting a file2 track updates the entry of its name only. */
  lemma IndexAfterUpdate(doc2: Doc, index1: Index, j: nat, index: Index, e: Entry)
    requires j < |doc2| && doc2[j].Trk?
    requires IndexAfter(doc2, index1, j, index)
    ensures IndexAfter(doc2, index1, j + 1, index[doc2[j].track.name := e])
  {
    NamedExtend(doc2, j);
  }

  /** Visiting a non-track, or a track whose name is indexed, without
      touching the index. */
  lemma IndexAfterSame(doc2: Doc, index1: Index, j: nat, index: Index)
    requires j < |doc2| && (doc2[j].Trk? ==> doc2[j].track.name in index)
    requires IndexAfter(doc2, index1, j, index)
    ensures IndexAfter(doc2, index1, j + 1, index)
  {
    NamedExtend(doc2, j);
  }

  /** The names seen after visiting file2's child `j`. */
  lemma NamedExtend(doc2: Doc, j: nat)
    requires j < |doc2|
    ensures forall name :: NamedIn(doc2, j + 1, name) <==>
              NamedIn(doc2, j, name) || (doc2[j].Trk? && name == doc2[j].track.name)
  {
    forall name
      ensures NamedIn(doc2, j + 1, name) <==>
              NamedIn(doc2, j, name) || (doc2[j].Trk? && name == doc2[j].track.name)
    {
      if NamedIn(doc2, j + 1, name) {
        var k :| 0 <= k < j + 1 && IsTrackNamed(doc2, k, name);
        if k < j {
          assert NamedIn(doc2, j, name);
        }
      }
      if doc2[j].Trk? && name == doc2[j].track.name {
        assert IsTrackNamed(doc2, j, name);
      }
    }
  }

  /** Whether a gaining file2 track has been visited after visiting child `j`. */
  lemma GainsExtend(doc1: Doc, doc2: Doc, j: nat)
    requires j < |doc2|
    ensures (exists k :: 0 <= k < j + 1 && Gains(doc2[k], doc1)) <==>
            (exists k :: 0 <= k < j && Gains(doc2[k], doc1)) || Gains(doc2[j], doc1)
  {
    if exists k :: 0 <= k < j + 1 && Gains(doc2[k], doc1) {
      var k :| 0 <= k < j + 1 && Gains(doc2[k], doc1);
      assert k < j || Gains(doc2[j], doc1);
    }
  }

  lemma StepOther(doc1: Doc, doc2: Doc, index1: Index, j: nat, s: State)
    requires j < |doc2| && doc2[j].Other?
    requires ScanDescribes(doc1, doc2, index1, j, s)
    ensures MergeStep(doc2, s, j) == Ok(s)
    ensures ScanDescribes(doc1, doc2, index1, j + 1, s)
  {
    KeptStable(doc1, doc2, j, |doc1|);
    IndexAfterSame(doc2, index1, j, s.index);
    GainsExtend(doc1, doc2, j);
  }

  /** A file2 track of a name file1 lacks is appended. */
  lemma StepNewName(doc1: Doc, doc2: Doc, index1: Index, j: nat, s: State)
    requires j < |doc2| && doc2[j].Trk? && doc2[j].track.name !in s.index
    requires DistinctNames(doc2)
    requires IndexDescribes(doc1, |doc1|, index1)
    requires ScanDescribes(doc1, doc2, index1, j, s)
    ensures MergeStep(doc2, s, j).Ok?
    ensures ScanDescribes(doc1, doc2, index1, j + 1, MergeStep(doc2, s, j).value)
  {
    var t := doc2[j].track;
    assert !NamedIn(doc2, j, t.name);
    assert !NamedIn(doc1, |doc1|, t.name);
    assert Gains(doc2[j], doc1);
    KeptStable(doc1, doc2, j, |doc1|);
    IndexAfterUpdate(doc2, index1, j, s.index, Entry(t.numpts, Elem2(j)));
    GainsExtend(doc1, doc2, j);
    var node := Node(Copy2(j), doc2[j]);
    assert GainedNodes(doc1, doc2, j + 1) == GainedNodes(doc1, doc2, j) + [node];
    var nodes' := KeptNodes(doc1, doc2[..j + 1], |doc1|) + GainedNodes(doc1, doc2, j + 1);
    assert nodes' == s.nodes + [node];
    assert MergeStep(doc2, s, j) == Ok(State(nodes', s.index[t.name := Entry(t.numpts, Elem2(j))], true));
  }

  /** A name not yet seen in file2 is outdone by none of its children so far. */
  lemma NotNamedNotOutdone(t: Track, doc2: Doc, j: nat)
    requires j <= |doc2| && !NamedIn(doc2, j, t.name)
    ensures !Outdone(t, doc2[..j])
  {
    forall k | 0 <= k < j
      ensures !IsTrackNamed(doc2[..j], k, t.name)
    {
      assert !IsTrackNamed(doc2, k, t.name);
      assert doc2[..j][k] == doc2[k];
    }
  }

  /** The element a replacing file2 track removes is file1's track `p` of
      its name, which is still in place and is no longer kept. */
  lemma ReplaceRemoves(doc1: Doc, doc2: Doc, j: nat, p: nat)
    requires j < |doc2| && doc2[j].Trk? && p < |doc1|
    requires DistinctNames(doc1)
    requires !NamedIn(doc2, j, doc2[j].track.name)
    requires IsTrackNamed(doc1, p, doc2[j].track.name)
    requires doc1[p].track.numpts < doc2[j].track.numpts
    ensures Gains(doc2[j], doc1)
    ensures RemoveNode(KeptNodes(doc1, doc2[..j], |doc1|) + GainedNodes(doc1, doc2, j), Orig1(p))
              == Some(KeptNodes(doc1, doc2[..j + 1], |doc1|) + GainedNodes(doc1, doc2, j))
  {
    var t := doc2[j].track;
    forall i | 0 <= i < |doc1| && IsTrackNamed(doc1, i, t.name)
      ensures doc1[i].track.numpts < t.numpts
    {
      assert i == p;
    }
    NotNamedNotOutdone(doc1[p].track, doc2, j);
    KeptRemove(doc1, doc2, j, p, |doc1|);
    RemoveBeforeSuffix(KeptNodes(doc1, doc2[..j], |doc1|), GainedNodes(doc1, doc2, j), Orig1(p),
                       KeptNodes(doc1, doc2[..j + 1], |doc1|));
  }

  /** A file2 track with more points than file1's track of that name
      replaces it. */
  lemma StepReplace(doc1: Doc, doc2: Doc, index1: Index, j: nat, s: State)
    requires j < |doc2| && doc2[j].Trk? && doc2[j].track.name in s.index
    requires doc2[j].track.numpts > s.index[doc2[j].track.name].numpts
    requires DistinctNames(doc1) && DistinctNames(doc2)
    requires IndexDescribes(doc1, |doc1|, index1)
    requires ScanDescribes(doc1, doc2, index1, j, s)
    ensures MergeStep(doc2, s, j).Ok?
    ensures ScanDescribes(doc1, doc2, index1, j + 1, MergeStep(doc2, s, j).value)
  {
    var t := doc2[j].track;
    assert !NamedIn(doc2, j, t.name);
    var e := index1[t.name];
    assert s.index[t.name] == e;
    ReplaceRemoves(doc1, doc2, j, e.ref.i);
    var kept' := KeptNodes(doc1, doc2[..j + 1], |doc1|);
    var gained := GainedNodes(doc1, doc2, j);
    IndexAfterUpdate(doc2, index1, j, s.index, Entry(t.numpts, Elem2(j)));
    GainsExtend(doc1, doc2, j);
    var node := Node(Copy2(j), doc2[j]);
    assert GainedNodes(doc1, doc2, j + 1) == gained + [node];
    var nodes' := kept' + GainedNodes(doc1, doc2, j + 1);
    assert nodes' == (kept' + gained) + [node];
    assert MergeStep(doc2, s, j) == Ok(State(nodes', s.index[t.name := Entry(t.numpts, Elem2(j))], true));
  }

  /** A file2 track with no more points than file1's track of that name is
      skipped. */
  lemma StepSkip(doc1: Doc, doc2: Doc, index1: Index, j: nat, s: State)
    requires j < |doc2| && doc2[j].Trk? && doc2[j].track.name in s.index
    requires doc2[j].track.numpts <= s.index[doc2[j].track.name].numpts
    requires DistinctNames(doc1) && DistinctNames(doc2)
    requires IndexDescribes(doc1, |doc1|, index1)
    requires ScanDescribes(doc1, doc2, index1, j, s)
    ensures MergeStep(doc2, s, j) == Ok(s)
    ensures ScanDescribes(doc1, doc2, index1, j + 1, s)
  {
    var t := doc2[j].track;
    assert !NamedIn(doc2, j, t.name);
    var e := index1[t.name];
    assert s.index[t.name] == e;
    assert !Gains(doc2[j], doc1);
    forall i | 0 <= i < |doc1| && IsTrackNamed(doc1, i, t.name)
      ensures doc1[i].track.numpts >= t.numpts
    {
      assert IsTrackNamed(doc1, e.ref.i, t.name);
      assert i == e.ref.i;
    }
    KeptStable(doc1, doc2, j, |doc1|);
    IndexAfterSame(doc2, index1, j, s.index);
    GainsExtend(doc1, doc2, j);
  }

  lemma StepDescribes(doc1: Doc, doc2: Doc, index1: Index, j: nat, s: State)
    requires j < |doc2|
    requires DistinctNames(doc1) && DistinctNames(doc2)
    requires IndexDescribes(doc1, |doc1|, index1)
    requires ScanDescribes(doc1, doc2, index1, j, s)
    ensures MergeStep(doc2, s, j).Ok?
    ensures ScanDescribes(doc1, doc2, index1, j + 1, MergeStep(doc2, s, j).value)
  {
    if doc2[j].Other? {
      StepOther(doc1, doc2, index1, j, s);
    } else if doc2[j].track.name !in s.index {
      StepNewName(doc1, doc2, index1, j, s);
    } else if doc2[j].track.numpts > s.index[doc2[j].track.name].numpts {
      StepReplace(doc1, doc2, index1, j, s);
    } else {
      StepSkip(doc1, doc2, index1, j, s);
    }
  }

  lemma {:induction false} MergeScanDescribes(doc1: Doc, doc2: Doc, index1: Index, j: nat)
    requires j <= |doc2|
    requires DistinctNames(doc1) && DistinctNames(doc2)
    requires IndexDescribes(doc1, |doc1|, index1)
    ensures MergeScan(doc1, doc2, index1, j).Ok?
    ensures ScanDescribes(doc1, doc2, index1, j, MergeScan(doc1, doc2, index1, j).value)
  {
    if j == 0 {
      NothingOutdoneYet(doc1, |doc1|);
      assert doc2[..0] == [];
    } else {
      MergeScanDescribes(doc1, doc2, index1, j - 1);
      var s := MergeScan(doc1, doc2, index1, j - 1).value;
      StepDescribes(doc1, doc2, index1, j - 1, s);
      assert MergeScan(doc1, doc2, index1, j) == MergeStep(doc2, s, j - 1);
    }
  }

  /** When neither file repeats a track name, file1 ends up holding its own
      children that no file2 track outdoes, in place, followed by the file2
      tracks that beat every same-name track of file1, in file2 order; and
      `modified` holds exactly when there is such a file2 track. */
  lemma MergeMatchesSpec(doc1: Doc, doc2: Doc)
    requires DistinctNames(doc1) && DistinctNames(doc2)
    ensures MergeDocs(doc1, doc2) == Ok(Merged(MergeSpec(doc1, doc2), ModifiedSpec(doc1, doc2)))
  {
    IndexFile1Describes(doc1, |doc1|);
    var index1 := IndexFile1(doc1, |doc1|).value;
    MergeScanDescribes(doc1, doc2, index1, |doc2|);
    var s := MergeScan(doc1, doc2, index1, |doc2|).value;
    assert doc2[..|doc2|] == doc2;
    ChildrenAppend(KeptNodes(doc1, doc2, |doc1|), GainedNodes(doc1, doc2, |doc2|));
    ChildrenOfKept(doc1, doc2, |doc1|);
    ChildrenOfGained(doc1, doc2, |doc2|);
  }
}

=== FILE: split.dfy ===
/** One date pass of `split`: from a deep copy of the document, every child
    that is not a track dated `d` is removed, and tracks of the same name are
    deduplicated by point count through a `name -> (points, element)` index. */
module Split {
  import opened Gpx

  /** Strictly increasing positions. */
  predicate Increasing(ps: seq<nat>)
  {
    forall a, b :: 0 <= a < b < |ps| ==> ps[a] < ps[b]
  }

  /** The children of `doc` at positions `ps`, in that order. */
  function Select(doc: Doc, ps: seq<nat>): (r: Doc)
    requires forall k :: 0 <= k < |ps| ==> ps[k] < |doc|
    ensures |r| == |ps|
    ensures forall k :: 0 <= k < |ps| ==> r[k] == doc[ps[k]]
  {
    seq(|ps|, k requires 0 <= k < |ps| => doc[ps[k]])
  }

  // ---------------------------------------------------------------------------
  // Reference definition of the pass for one date

  /** Child `i` is a track whose (localised) date is `d`. */
  predicate Candidate(doc: Doc, d: Date, tz: Option<Zone>, i: nat)
  {
    i < |doc| && doc[i].Trk? && TrackDate(doc[i].track, tz) == d
  }

  /** Among the candidates at positions below `n`, child `i` is the survivor
      for its name: no candidate of that name has more points, and every
      earlier candidate of that name has strictly fewer. */
  predicate BestBefore(doc: Doc, d: Date, tz: Option<Zone>, n: nat, i: nat)
  {
    && i < n
    && Candidate(doc, d, tz, i)
    && forall k: nat :: k < n && Candidate(doc, d, tz, k) && doc[k].track.name == doc[i].track.name ==>
         && doc[k].track.numpts <= doc[i].track.numpts
         && (k < i ==> doc[k].track.numpts < doc[i].track.numpts)
  }

  /** Child `i` is the earliest track dated `d` that attains the largest
      point count among the tracks of its name dated `d`. */
  predicate IsBest(doc: Doc, d: Date, tz: Option<Zone>, i: nat)
  {
    BestBefore(doc, d, tz, |doc|, i)
  }

  /** The positions below `n` of the survivors, in document order. */
  function BestPositions(doc: Doc, d: Date, tz: Option<Zone>, n: nat): (ps: seq<nat>)
    requires n <= |doc|
    ensures Increasing(ps)
    ensures forall k :: 0 <= k < |ps| ==> ps[k] < n
    ensures forall i: nat :: i in ps <==> i < n && IsBest(doc, d, tz, i)
  {
    if n == 0 then []
    else BestPositions(doc, d, tz, n - 1) + (if IsBest(doc, d, tz, n - 1) then [n - 1] else [])
  }

  /** What a date pass should leave: the survivors, in document order. */
  function BestTracks(doc: Doc, d: Date, tz: Option<Zone>): Doc
  {
    Select(doc, BestPositions(doc, d, tz, |doc|))
  }

  // ---------------------------------------------------------------------------
  // The pass as the source performs it

  /** Index entry: the position of the kept track and its point count. */
  datatype Kept = Kept(pos: nat, numpts: nat)

  /** State of the pass: positions of the children still in the copy among
      those visited, and the index of kept tracks by name. */
  datatype Pass = Pass(kept: seq<nat>, index: map<string, Kept>)

  /** `ps` without the position `p` (lxml `root.remove`). */
  function Without(ps: seq<nat>, p: nat): (r: seq<nat>)
    ensures forall x :: x in r <==> x in ps && x != p
    ensures |r| <= |ps|
    ensures Increasing(ps) ==> Increasing(r)
  {
    if ps == [] then []
    else
      var rest := Without(ps[1..], p);
      assert Increasing(ps) ==> forall k :: 0 <= k < |rest| ==> ps[0] < rest[k] by {
        if Increasing(ps) {
          forall k | 0 <= k < |rest|
            ensures ps[0] < rest[k]
          {
            assert rest[k] in ps[1..];
          }
        }
      }
      if ps[0] == p then rest else [ps[0]] + rest
  }

  /** Visit child `i`. */
  function Step(doc: Doc, d: Date, tz: Option<Zone>, s: Pass, i: nat): Pass
    requires i < |doc|
  {
    match doc[i]
    case Other => s
    case Trk(t) =>
      if TrackDate(t, tz) != d then s
      else if t.name in s.index then
        if s.index[t.name].numpts >= t.numpts then s
        else Pass(Without(s.kept, s.index[t.name].pos) + [i], s.index[t.name := Kept(i, t.numpts)])
      else Pass(s.kept + [i], s.index[t.name := Kept(i, t.numpts)])
  }

  /** The pass after visiting the first `n` children. */
  function Scan(doc: Doc, d: Date, tz: Option<Zone>, n: nat): Pass
    requires n <= |doc|
  {
    if n == 0 then Pass([], map[]) else Step(doc, d, tz, Scan(doc, d, tz, n - 1), n - 1)
  }

  /** The kept positions after visiting the first `n` children are, in
      order, exactly the survivors so far. */
  ghost predicate KeptInv(doc: Doc, d: Date, tz: Option<Zone>, n: nat, kept: seq<nat>)
  {
    && Increasing(kept)
    && (forall k :: 0 <= k < |kept| ==> kept[k] < n)
    && (forall i: nat :: i in kept <==> BestBefore(doc, d, tz, n, i))
  }

  /** The index after visiting the first `n` children holds every name of a
      candidate so far, mapped to that name's survivor and its point count. */
  ghost predicate IndexInv(doc: Doc, d: Date, tz: Option<Zone>, n: nat, index: map<string, Kept>)
  {
    && (forall name :: name in index <==>
          exists k: nat :: k < n && Candidate(doc, d, tz, k) && doc[k].track.name == name)
    && (forall name :: name in index ==>
          && BestBefore(doc, d, tz, n, index[name].pos)
          && doc[index[name].pos].track.name == name
          && index[name].numpts == doc[index[name].pos].track.numpts)
  }

  /** What the pass state means after visiting the first `n` children. */
  ghost predicate PassInv(doc: Doc, d: Date, tz: Option<Zone>, n: nat, s: Pass)
  {
    KeptInv(doc, d, tz, n, s.kept) && IndexInv(doc, d, tz, n, s.index)
  }

  /** Two survivors of the same name are the same child. */
  lemma BestUnique(doc: Doc, d: Date, tz: Option<Zone>, n: nat, i: nat, j: nat)
    requires BestBefore(doc, d, tz, n, i) && BestBefore(doc, d, tz, n, j)
    requires doc[i].track.name == doc[j].track.name
    ensures i == j
  {
  }

  /** Visiting child `n` does not change the standing of an earlier child
      of another name, or of any earlier child when `n` is not a candidate. */
  lemma StandingKept(doc: Doc, d: Date, tz: Option<Zone>, n: nat, i: nat)
    requires n < |doc| && i < n
    requires !Candidate(doc, d, tz, n) || !Candidate(doc, d, tz, i) || doc[n].track.name != doc[i].track.name
    ensures BestBefore(doc, d, tz, n + 1, i) <==> BestBefore(doc, d, tz, n, i)
  {
  }

  /** Visiting child `n` only takes survivor standing away from earlier children. */
  lemma StandingShrinks(doc: Doc, d: Date, tz: Option<Zone>, n: nat, i: nat)
    requires n < |doc| && i < n
    requires BestBefore(doc, d, tz, n + 1, i)
    ensures BestBefore(doc, d, tz, n, i)
  {
  }

  lemma StepSkipKeepsInv(doc: Doc, d: Date, tz: Option<Zone>, n: nat, s: Pass)
    requires n < |doc| && !Candidate(doc, d, tz, n)
    requires PassInv(doc, d, tz, n, s)
    ensures PassInv(doc, d, tz, n + 1, s)
  {
    forall i: nat | i < n
      ensures BestBefore(doc, d, tz, n + 1, i) <==> BestBefore(doc, d, tz, n, i)
    {
      StandingKept(doc, d, tz, n, i);
    }
    forall k: nat | k < n + 1 && Candidate(doc, d, tz, k)
      ensures doc[k].track.name in s.index
    {
    }
  }

  /** The index holds no name of a candidate it does not map. */
  lemma UnindexedIsNew(doc: Doc, d: Date, tz: Option<Zone>, n: nat, index: map<string, Kept>)
    requires n < |doc| && Candidate(doc, d, tz, n)
    requires doc[n].track.name !in index
    requires IndexInv(doc, d, tz, n, index)
    ensures forall k: nat :: k < n && Candidate(doc, d, tz, k) ==> doc[k].track.name != doc[n].track.name
  {
  }

  lemma StepNewKeepsKept(doc: Doc, d: Date, tz: Option<Zone>, n: nat, kept: seq<nat>)
    requires n < |doc| && Candidate(doc, d, tz, n)
    requires forall k: nat :: k < n && Candidate(doc, d, tz, k) ==> doc[k].track.name != doc[n].track.name
    requires KeptInv(doc, d, tz, n, kept)
    ensures KeptInv(doc, d, tz, n + 1, kept + [n])
  {
  }

  lemma StepNewKeepsIndex(doc: Doc, d: Date, tz: Option<Zone>, n: nat, index: map<string, Kept>)
    requires n < |doc| && Candidate(doc, d, tz, n)
    requires doc[n].track.name !in index
    requires IndexInv(doc, d, tz, n, index)
    ensures IndexInv(doc, d, tz, n + 1, index[doc[n].track.name := Kept(n, doc[n].track.numpts)])
  {
  }

  lemma StepNewKeepsInv(doc: Doc, d: Date, tz: Option<Zone>, n: nat, s: Pass)
    requires n < |doc| && Candidate(doc, d, tz, n)
    requires doc[n].track.name !in s.index
    requires PassInv(doc, d, tz, n, s)
    ensures PassInv(doc, d, tz, n + 1, Pass(s.kept + [n], s.index[doc[n].track.name := Kept(n, doc[n].track.numpts)]))
  {
    UnindexedIsNew(doc, d, tz, n, s.index);
    StepNewKeepsKept(doc, d, tz, n, s.kept);
    StepNewKeepsIndex(doc, d, tz, n, s.index);
  }

  /** A candidate with no more points than the indexed survivor of its name
      changes nobody's standing and gains none itself. */
  lemma DropStanding(doc: Doc, d: Date, tz: Option<Zone>, n: nat, index: map<string, Kept>)
    requires n < |doc| && Candidate(doc, d, tz, n)
    requires doc[n].track.name in index
    requires index[doc[n].track.name].numpts >= doc[n].track.numpts
    requires IndexInv(doc, d, tz, n, index)
    ensures !BestBefore(doc, d, tz, n + 1, n)
    ensures forall i: nat :: i < n ==> (BestBefore(doc, d, tz, n + 1, i) <==> BestBefore(doc, d, tz, n, i))
  {
  }

  lemma StepDropKeepsKept(doc: Doc, d: Date, tz: Option<Zone>, n: nat, s: Pass)
    requires n < |doc| && Candidate(doc, d, tz, n)
    requires doc[n].track.name in s.index
    requires s.index[doc[n].track.name].numpts >= doc[n].track.numpts
    requires PassInv(doc, d, tz, n, s)
    ensures KeptInv(doc, d, tz, n + 1, s.kept)
  {
  }

  lemma StepDropKeepsIndex(doc: Doc, d: Date, tz: Option<Zone>, n: nat, index: map<string, Kept>)
    requires n < |doc| && Candidate(doc, d, tz, n)
    requires doc[n].track.name in index
    requires index[doc[n].track.name].numpts >= doc[n].track.numpts
    requires IndexInv(doc, d, tz, n, index)
    ensures IndexInv(doc, d, tz, n + 1, index)
  {
    // Dafny finds this unaided too, at about three times the cost.
    DropStanding(doc, d, tz, n, index);
    forall k: nat | k < n + 1 && Candidate(doc, d, tz, k)
      ensures doc[k].track.name in index
    {
    }
    forall name | name in index
      ensures BestBefore(doc, d, tz, n + 1, index[name].pos)
    {
      assert BestBefore(doc, d, tz, n, index[name].pos);
    }
  }

  lemma StepDropKeepsInv(doc: Doc, d: Date, tz: Option<Zone>, n: nat, s: Pass)
    requires n < |doc| && Candidate(doc, d, tz, n)
    requires doc[n].track.name in s.index
    requires s.index[doc[n].track.name].numpts >= doc[n].track.numpts
    requires PassInv(doc, d, tz, n, s)
    ensures PassInv(doc, d, tz, n + 1, s)
  {
    // Dafny finds this unaided, at several times the cost; the two halves keep it cheap.
    StepDropKeepsKept(doc, d, tz, n, s);
    StepDropKeepsIndex(doc, d, tz, n, s.index);
  }

  /** Appending a position above all others keeps the positions increasing. */
  lemma AppendPosition(rest: seq<nat>, n: nat)
    requires Increasing(rest)
    requires forall k :: 0 <= k < |rest| ==> rest[k] < n
    ensures Increasing(rest + [n])
    ensures forall k :: 0 <= k < |rest + [n]| ==> (rest + [n])[k] < n + 1
    ensures forall i: nat :: i in rest + [n] <==> i in rest || i == n
  {
  }

  /** When child `n` beats the kept track of its name, that track loses its
      standing and every other earlier child keeps its own. */
  lemma ReplaceStanding(doc: Doc, d: Date, tz: Option<Zone>, n: nat, s: Pass)
    requires n < |doc| && Candidate(doc, d, tz, n)
    requires doc[n].track.name in s.index
    requires s.index[doc[n].track.name].numpts < doc[n].track.numpts
    requires PassInv(doc, d, tz, n, s)
    ensures forall i: nat :: i < n ==>
      (i in Without(s.kept, s.index[doc[n].track.name].pos) <==> BestBefore(doc, d, tz, n + 1, i))
  {
    var t := doc[n].track;
    var e := s.index[t.name];
    var rest := Without(s.kept, e.pos);
    assert BestBefore(doc, d, tz, n, e.pos);
    assert !BestBefore(doc, d, tz, n + 1, e.pos);
    forall i: nat | i < n
      ensures i in rest <==> BestBefore(doc, d, tz, n + 1, i)
    {
      if Candidate(doc, d, tz, i) && doc[i].track.name == t.name {
        if BestBefore(doc, d, tz, n, i) {
          BestUnique(doc, d, tz, n, i, e.pos);
        }
        if BestBefore(doc, d, tz, n + 1, i) {
          StandingShrinks(doc, d, tz, n, i);
          BestUnique(doc, d, tz, n, i, e.pos);
        }
      } else {
        StandingKept(doc, d, tz, n, i);
      }
    }
  }

  /** Child `n` with more points than the survivor `p` of its name becomes
      the survivor. */
  lemma NewBest(doc: Doc, d: Date, tz: Option<Zone>, n: nat, p: nat)
    requires n < |doc| && Candidate(doc, d, tz, n)
    requires BestBefore(doc, d, tz, n, p)
    requires doc[p].track.name == doc[n].track.name && doc[p].track.numpts < doc[n].track.numpts
    ensures BestBefore(doc, d, tz, n + 1, n)
  {
  }

  lemma ReplaceKeepsKept(doc: Doc, d: Date, tz: Option<Zone>, n: nat, s: Pass)
    requires n < |doc| && Candidate(doc, d, tz, n)
    requires doc[n].track.name in s.index
    requires s.index[doc[n].track.name].numpts < doc[n].track.numpts
    requires PassInv(doc, d, tz, n, s)
    ensures KeptInv(doc, d, tz, n + 1, Without(s.kept, s.index[doc[n].track.name].pos) + [n])
  {
    var t := doc[n].track;
    var rest := Without(s.kept, s.index[t.name].pos);
    ReplaceStanding(doc, d, tz, n, s);
    forall k | 0 <= k < |rest|
      ensures rest[k] < n
    {
      assert rest[k] in rest;
    }
    AppendPosition(rest, n);
    NewBest(doc, d, tz, n, s.index[t.name].pos);
  }

  lemma ReplaceKeepsIndex(doc: Doc, d: Date, tz: Option<Zone>, n: nat, index: map<string, Kept>)
    requires n < |doc| && Candidate(doc, d, tz, n)
    requires doc[n].track.name in index
    requires index[doc[n].track.name].numpts < doc[n].track.numpts
    requires IndexInv(doc, d, tz, n, index)
    ensures IndexInv(doc, d, tz, n + 1, index[doc[n].track.name := Kept(n, doc[n].track.numpts)])
  {
  }

  lemma StepReplaceKeepsInv(doc: Doc, d: Date, tz: Option<Zone>, n: nat, s: Pass)
    requires n < |doc| && Candidate(doc, d, tz, n)
    requires doc[n].track.name in s.index
    requires s.index[doc[n].track.name].numpts < doc[n].track.numpts
    requires PassInv(doc, d, tz, n, s)
    ensures PassInv(doc, d, tz, n + 1, Pass(Without(s.kept, s.index[doc[n].track.name].pos) + [n],
                                            s.index[doc[n].track.name := Kept(n, doc[n].track.numpts)]))
  {
    ReplaceKeepsKept(doc, d, tz, n, s);
    ReplaceKeepsIndex(doc, d, tz, n, s.index);
  }

  lemma StepKeepsInv(doc: Doc, d: Date, tz: Option<Zone>, n: nat, s: Pass)
    requires n < |doc|
    requires PassInv(doc, d, tz, n, s)
    ensures PassInv(doc, d, tz, n + 1, Step(doc, d, tz, s, n))
  {
    if !Candidate(doc, d, tz, n) {
      StepSkipKeepsInv(doc, d, tz, n, s);
    } else if doc[n].track.name !in s.index {
      StepNewKeepsInv(doc, d, tz, n, s);
    } else if s.index[doc[n].track.name].numpts >= doc[n].track.numpts {
      StepDropKeepsInv(doc, d, tz, n, s);
    } else {
      StepReplaceKeepsInv(doc, d, tz, n, s);
    }
  }

  lemma {:induction false} ScanInv(doc: Doc, d: Date, tz: Option<Zone>, n: nat)
    requires n <= |doc|
    ensures PassInv(doc, d, tz, n, Scan(doc, d, tz, n))
  {
    if n > 0 {
      ScanInv(doc, d, tz, n - 1);
      var s := Scan(doc, d, tz, n - 1);
      StepKeepsInv(doc, d, tz, n - 1, s);
      assert Scan(doc, d, tz, n) == Step(doc, d, tz, s, n - 1);
    }
  }

  /** Two increasing sequences with the same elements are equal. */
  lemma {:induction false} IncreasingUnique(a: seq<nat>, b: seq<nat>)
    requires Increasing(a) && Increasing(b)
    requires forall x :: x in a <==> x in b
    ensures a == b
  {
    if a != [] {
      assert a[0] in b;
    }
    if b != [] {
      assert b[0] in a;
    }
    if a != [] && b != [] {
      assert a[0] == b[0];
      forall x
        ensures x in a[1..] <==> x in b[1..]
      {
        if x in a[1..] {
          assert x in a && x != a[0];
        }
        if x in b[1..] {
          assert x in b && x != b[0];
        }
      }
      IncreasingUnique(a[1..], b[1..]);
    }
  }

  /** After the last child, the positions the pass kept are the reference's
      survivors. */
  lemma ScanKeepsBest(doc: Doc, d: Date, tz: Option<Zone>)
    ensures Scan(doc, d, tz, |doc|).kept == BestPositions(doc, d, tz, |doc|)
  {
    var s := Scan(doc, d, tz, |doc|);
    ScanInv(doc, d, tz, |doc|);
    IncreasingUnique(s.kept, BestPositions(doc, d, tz, |doc|));
  }

  /** The pass of `split` for date `d`: the children that survive in the copy
      written for `d`. */
  function SplitDay(doc: Doc, d: Date, tz: Option<Zone>): (r: Doc)
    ensures r == BestTracks(doc, d, tz)
  {
    ScanKeepsBest(doc, d, tz);
    Select(doc, Scan(doc, d, tz, |doc|).kept)
  }
}

/** What a date pass of `split` guarantees about the document it writes. */
module SplitProperties {
  import opened Gpx
  import opened Split

  /** `a` can be obtained from `b` by removing elements. */
  ghost predicate IsSubsequence(a: Doc, b: Doc)
    decreases |b|
  {
    if a == [] then true
    else if b == [] then false
    else if a[|a| - 1] == b[|b| - 1] && IsSubsequence(a[..|a| - 1], b[..|b| - 1]) then true
    else IsSubsequence(a, b[..|b| - 1])
  }

  lemma {:induction false} SelectIsSubsequence(doc: Doc, ps: seq<nat>)
    requires Increasing(ps)
    requires forall k :: 0 <= k < |ps| ==> ps[k] < |doc|
    ensures IsSubsequence(Select(doc, ps), doc)
    decreases |doc|
  {
    var a := Select(doc, ps);
    if ps != [] {
      var last := |ps| - 1;
      assert ps[last] < |doc|;
      var front := doc[..|doc| - 1];
      if ps[last] == |doc| - 1 {
        var ps' := ps[..last];
        forall k | 0 <= k < |ps'|
          ensures ps'[k] < |front|
        {
          assert ps[k] < ps[last];
        }
        assert Select(front, ps') == a[..|a| - 1];
        SelectIsSubsequence(front, ps');
      } else {
        forall k | 0 <= k < |ps|
          ensures ps[k] < |front|
        {
          if k < last {
            assert ps[k] < ps[last];
          }
        }
        assert Select(front, ps) == a;
        SelectIsSubsequence(front, ps);
      }
    }
  }

  /** Only removals happen: the output keeps the relative order of the input. */
  lemma SplitDayIsSubsequence(doc: Doc, d: Date, tz: Option<Zone>)
    ensures IsSubsequence(SplitDay(doc, d, tz), doc)
  {
    SelectIsSubsequence(doc, BestPositions(doc, d, tz, |doc|));
  }

  /** Every child left for date `d` is a track whose date is `d`. */
  lemma SplitDayOnlyTracksOfDate(doc: Doc, d: Date, tz: Option<Zone>)
    ensures forall c :: c in SplitDay(doc, d, tz) ==> c.Trk? && TrackDate(c.track, tz) == d
  {
    var r := SplitDay(doc, d, tz);
    var ps := BestPositions(doc, d, tz, |doc|);
    forall c | c in r
      ensures c.Trk? && TrackDate(c.track, tz) == d
    {
      var k :| 0 <= k < |r| && r[k] == c;
      assert ps[k] in ps;
    }
  }

  /** No two tracks left for date `d` share a name. */
  lemma SplitDayDistinctNames(doc: Doc, d: Date, tz: Option<Zone>)
    ensures DistinctNames(SplitDay(doc, d, tz))
  {
    var r := SplitDay(doc, d, tz);
    var ps := BestPositions(doc, d, tz, |doc|);
    forall a, b | 0 <= a < b < |r| && r[a].Trk? && r[b].Trk?
      ensures r[a].track.name != r[b].track.name
    {
      assert ps[a] in ps && ps[b] in ps;
      if r[a].track.name == r[b].track.name {
        BestUnique(doc, d, tz, |doc|, ps[a], ps[b]);
      }
    }
  }

  /** Every name with a track dated `d` keeps a track in the output: the
      earliest one attaining the largest point count for that name. With
      `SplitDayDistinctNames` it is the only one. */
  lemma SplitDayKeepsBestOfEachName(doc: Doc, d: Date, tz: Option<Zone>, i: nat)
    requires Candidate(doc, d, tz, i)
    ensures exists p: nat :: IsBest(doc, d, tz, p) && doc[p].track.name == doc[i].track.name
                             && doc[p] in SplitDay(doc, d, tz)
  {
    ScanInv(doc, d, tz, |doc|);
    var s := Scan(doc, d, tz, |doc|);
    var name := doc[i].track.name;
    assert name in s.index;
    var p := s.index[name].pos;
    var ps := BestPositions(doc, d, tz, |doc|);
    assert p in ps;
    var k :| 0 <= k < |ps| && ps[k] == p;
    assert SplitDay(doc, d, tz)[k] == doc[p];
  }

  /** Without a timezone every track is looked at by exactly one date pass:
      the pass for its own date, which is one of the collected dates. */
  lemma UnzonedPassesCoverEachTrackOnce(doc: Doc, i: nat)
    requires i < |doc| && doc[i].Trk?
    ensures doc[i].track.date in Dates(doc)
    ensures forall d :: Candidate(doc, d, None, i) <==> d == doc[i].track.date
  {
  }

  /** With a timezone, a track whose local date is not among the collected
      (unlocalised) dates is removed by every date pass. */
  lemma ZonedTrackOutsideDatesIsDropped(doc: Doc, zone: Zone, i: nat)
    requires i < |doc| && doc[i].Trk?
    requires zone(doc[i].track.time) !in Dates(doc)
    ensures forall d :: d in Dates(doc) ==> i !in BestPositions(doc, d, Some(zone), |doc|)
  {
  }

  /** Such a track exists: a ride at 22:00 UTC on 1 June, in a zone three
      hours ahead of UTC (2 June begins at instant 1401656400), is left out
      of every file. */
  lemma ZonedTrackDroppedExample()
    ensures var t := Track("Evening Ride", Date(2014, 6, 1), 1401660000, 10);
            var zone: Zone := t => if t < 1401656400 then Date(2014, 6, 1) else Date(2014, 6, 2);
            && Dates([Trk(t)]) == {Date(2014, 6, 1)}
            && SplitDay([Trk(t)], Date(2014, 6, 1), Some(zone)) == []
  {
    var t := Track("Evening Ride", Date(2014, 6, 1), 1401660000, 10);
    var zone: Zone := t => if t < 1401656400 then Date(2014, 6, 1) else Date(2014, 6, 2);
    assert !Candidate([Trk(t)], Date(2014, 6, 1), Some(zone), 0);
    assert BestPositions([Trk(t)], Date(2014, 6, 1), Some(zone), 1) == [];
  }

  /** Two "Morning Ride" tracks of the same day with 120 and 300 points: the
      pass for that day keeps only the one with 300 points. */
  lemma MorningRideExample()
    ensures var day := Date(2014, 6, 1);
            var small := Trk(Track("Morning Ride", day, 1401606000, 120));
            var large := Trk(Track("Morning Ride", day, 1401609600, 300));
            SplitDay([small, large], day, None) == [large]
  {
    var day := Date(2014, 6, 1);
    var small := Trk(Track("Morning Ride", day, 1401606000, 120));
    var large := Trk(Track("Morning Ride", day, 1401609600, 300));
    var doc := [small, large];
    assert !IsBest(doc, day, None, 0) by {
      assert Candidate(doc, day, None, 1);
    }
    assert IsBest(doc, day, None, 1);
    assert BestPositions(doc, day, None, 2) == [1];
  }
}

=== FILE: split_run.dfy ===
/** `split(filename, tz)` on the file system: for every date of the input's
    tracks, the tracks of that date (one per name) go to the first free
    `<date>-<n>.gpx` in the current directory, and when the date's base file
    `<date>-000.gpx` existed already, that new file is merged into it and
    removed. */
module SplitRun {
  import opened Gpx
  import opened Split
  import opened SplitProperties
  import opened Filenames
  import opened Merge
  import opened MergeLaws

  /** `make_filename` is called with its default directory. */
  const Dir: string := "."

  /** The base files of the dates `ds`. */
  ghost function BaseNames(ds: set<Date>): set<string>
  {
    set d | d in ds :: BaseName(d, Dir)
  }

  /** Different dates have different base files. */
  lemma BaseNameIn(ds: set<Date>, d: Date)
    ensures BaseName(d, Dir) in BaseNames(ds) <==> d in ds
  {
    if BaseName(d, Dir) in BaseNames(ds) {
      var d' :| d' in ds && BaseName(d', Dir) == BaseName(d, Dir);
      SeqNameInjective(d', 0, d, 0, Dir);
    }
  }

  /** What the base file of date `d` holds once `split` has handled `d`:
      the day's tracks, merged into the base file's earlier content when it
      existed. */
  function Expected(fs: FileSystem, doc: Doc, d: Date, tz: Option<Zone>): Doc
  {
    var part := SplitDay(doc, d, tz);
    if BaseName(d, Dir) in fs then MergeSpec(fs[BaseName(d, Dir)], part) else part
  }

  /** Every existing base file among the dates `ds` is free of repeated
      track names, so merging into it succeeds. */
  predicate BasesMergeable(fs: FileSystem, ds: set<Date>)
  {
    forall d :: d in ds && BaseName(d, Dir) in fs ==> DistinctNames(fs[BaseName(d, Dir)])
  }

  /** The state of the files after the dates `done` have been handled. */
  ghost predicate Handled(fs: FileSystem, doc: Doc, tz: Option<Zone>, done: set<Date>, cur: FileSystem)
  {
    && cur.Keys == fs.Keys + BaseNames(done)
    && (forall d :: d in done ==> BaseName(d, Dir) in cur && cur[BaseName(d, Dir)] == Expected(fs, doc, d, tz))
    && (forall k :: k in fs && k !in BaseNames(done) ==> cur[k] == fs[k])
    && BasesMergeable(fs, done)
  }

  /** `split(filename, tz)`. An input that cannot be parsed changes nothing.
      Otherwise the run fails, on file1's undefined `tracks` in `merge`,
      exactly when an existing base file repeats a track name; when it
      succeeds, each date's base file holds the expected content, the day
      files merged into base files are gone, and no other file changes. */
  method SplitFile(fs: FileSystem, filename: string, tz: Option<Zone>)
    returns (out: FileSystem, failure: Option<MergeError>)
    ensures filename !in fs ==> out == fs && failure == None
    ensures filename in fs ==> (failure == None <==> BasesMergeable(fs, Dates(fs[filename])))
    ensures failure.Some? ==> failure.value.UndefinedTracks?
    ensures filename in fs && failure == None ==>
              && out.Keys == fs.Keys + BaseNames(Dates(fs[filename]))
              && (forall d :: d in Dates(fs[filename]) ==>
                    BaseName(d, Dir) in out && out[BaseName(d, Dir)] == Expected(fs, fs[filename], d, tz))
              && (forall k :: k in fs && k !in BaseNames(Dates(fs[filename])) ==> out[k] == fs[k])
  {
    if filename !in fs {
      return fs, None;
    }
    out, failure := SplitDoc(fs, fs[filename], tz);
  }

  /** The loop over the dates of the parsed input `doc`. */
  method SplitDoc(fs: FileSystem, doc: Doc, tz: Option<Zone>)
    returns (out: FileSystem, failure: Option<MergeError>)
    ensures failure == None <==> BasesMergeable(fs, Dates(doc))
    ensures failure.Some? ==> failure.value.UndefinedTracks?
    ensures failure == None ==> Handled(fs, doc, tz, Dates(doc), out)
  {
    out, failure := fs, None;
    var dates := Dates(doc);
    var todo := dates;
    ghost var done: set<Date> := {};
    HandledAtStart(fs, doc, tz);
    while todo != {}
      invariant todo <= dates && done == dates - todo
      invariant Handled(fs, doc, tz, done, out)
      invariant failure == None
      decreases |todo|
    {
      var d :| d in todo;
      out, failure := HandleDate(fs, doc, tz, done, d, out);
      if failure.Some? {
        NotMergeable(fs, dates, d);
        return;
      }
      MoveOne(dates, todo, done, d);
      todo := todo - {d};
      done := done + {d};
    }
    assert done == dates;
  }

  lemma HandledAtStart(fs: FileSystem, doc: Doc, tz: Option<Zone>)
    ensures Handled(fs, doc, tz, {}, fs)
  {
  }

  lemma NotMergeable(fs: FileSystem, dates: set<Date>, d: Date)
    requires d in dates && BaseName(d, Dir) in fs && !DistinctNames(fs[BaseName(d, Dir)])
    ensures !BasesMergeable(fs, dates)
  {
  }

  lemma MoveOne<T>(all: set<T>, todo: set<T>, done: set<T>, x: T)
    requires todo <= all && done == all - todo && x in todo
    ensures todo - {x} <= all && done + {x} == all - (todo - {x})
  {
  }

  /** One pass of the date loop: write the tracks of date `d` to the first
      free name and, when that is not the base file, merge it into the base
      file. */
  method HandleDate(fs: FileSystem, doc: Doc, tz: Option<Zone>, ghost done: set<Date>, d: Date, cur: FileSystem)
    returns (next: FileSystem, failure: Option<MergeError>)
    requires d !in done
    requires Handled(fs, doc, tz, done, cur)
    ensures failure == None <==> (BaseName(d, Dir) in fs ==> DistinctNames(fs[BaseName(d, Dir)]))
    ensures failure.Some? ==> failure.value.UndefinedTracks?
    ensures failure == None ==> Handled(fs, doc, tz, done + {d}, next)
  {
    BaseNameIn(done, d);
    var n, fname, baseFile, doMerge := MakeFilename(d, Dir, cur.Keys);
    var part := SplitDay(doc, d, tz);
    SplitDayDistinctNames(doc, d, tz);
    next, failure := cur[fname := part], None;
    if doMerge {
      MergeFilesFailsIffFile1Repeats(next, baseFile, fname);
      match MergeFiles(next, baseFile, fname)
      case Err(e) =>
        failure := Some(e);
        return;
      case Ok(merged) =>
        MergeFilesSpec(next, baseFile, fname);
        WriteThenDrop(cur, fname, part, baseFile, Expected(fs, doc, d, tz));
        next := merged;
    }
    DoneOneMore(fs, doc, tz, done, d, cur, next);
  }

  /** Writing a new file, then overwriting another one and removing the new
      one, is overwriting the other one. */
  lemma WriteThenDrop<K, V>(m: map<K, V>, k: K, v: V, k': K, v': V)
    requires k !in m && k' in m
    ensures m[k := v][k' := v'] - {k} == m[k' := v']
  {
  }

  /** The base files of the handled dates keep their expected content when
      the base file of a further date `d` is written. */
  lemma HandledStay(fs: FileSystem, doc: Doc, tz: Option<Zone>, done: set<Date>, d: Date,
                    before: FileSystem, after: FileSystem)
    requires forall e :: e in done ==> BaseName(e, Dir) in before && before[BaseName(e, Dir)] == Expected(fs, doc, e, tz)
    requires after == before[BaseName(d, Dir) := Expected(fs, doc, d, tz)]
    ensures forall e :: e in done + {d} ==> after[BaseName(e, Dir)] == Expected(fs, doc, e, tz)
  {
    forall e | e in done + {d}
      ensures after[BaseName(e, Dir)] == Expected(fs, doc, e, tz)
    {
      if e != d {
        BaseNameIn({d}, e);
      }
    }
  }

  lemma KeysAfter(fs: FileSystem, done: set<Date>, d: Date, v: Doc, before: FileSystem, after: FileSystem)
    requires before.Keys == fs.Keys + BaseNames(done)
    requires after == before[BaseName(d, Dir) := v]
    ensures after.Keys == fs.Keys + BaseNames(done + {d})
  {
  }

  lemma OthersAfter(fs: FileSystem, done: set<Date>, d: Date, v: Doc, before: FileSystem, after: FileSystem)
    requires fs.Keys <= before.Keys
    requires forall k :: k in fs && k !in BaseNames(done) ==> before[k] == fs[k]
    requires after == before[BaseName(d, Dir) := v]
    ensures forall k :: k in fs && k !in BaseNames(done + {d}) ==> after[k] == fs[k]
  {
  }

  lemma MergeableAfter(fs: FileSystem, done: set<Date>, d: Date)
    requires BasesMergeable(fs, done)
    requires BaseName(d, Dir) in fs ==> DistinctNames(fs[BaseName(d, Dir)])
    ensures BasesMergeable(fs, done + {d})
  {
  }

  /** The invariant of the date loop after handling date `d`, given how the
      iteration changed the files. */
  lemma DoneOneMore(fs: FileSystem, doc: Doc, tz: Option<Zone>, done: set<Date>, d: Date,
                    before: FileSystem, after: FileSystem)
    requires Handled(fs, doc, tz, done, before)
    requires BaseName(d, Dir) in fs ==> DistinctNames(fs[BaseName(d, Dir)])
    requires after == before[BaseName(d, Dir) := Expected(fs, doc, d, tz)]
    ensures Handled(fs, doc, tz, done + {d}, after)
  {
    var v := Expected(fs, doc, d, tz);
    KeysAfter(fs, done, d, v, before, after);
    HandledStay(fs, doc, tz, done, d, before, after);
    OthersAfter(fs, done, d, v, before, after);
    MergeableAfter(fs, done, d);
  }
}
